=== FILE: README.md ===
# UML-to-Baserow model extraction

This project models in Dafny the part of the UML-to-Baserow service that reads a UML
model and works out which Baserow tables, fields and link fields to create. The model
covers two parts of the service:

- **Extraction** (`app/xmi_reader/`). The packaged elements of an XMI document are turned
  into the following:
  - a dict of classes;
  - catalogs of data types and enumerations;
  - one list of fields per class, derived from its owned attributes;
  - one list of association ends per class, derived from its owned associations.
- **Provisioning** (`app/baserow_init.py`). This part covers only the logic that decides
  the calls:
  - one table per class, named after the class, with a `Primary key` column;
  - one field per attribute on that table;
  - then one `link_row` field per association end on the owning class's table.

Each raised Python exception becomes a `Result` failure, with one `Errors.Error` variant
per exception and cause. Several raising sites can share a variant: for example, both
lookups in `create_link_rows` raise "Id pair not found". The class dict, which is
iterated, is a `Dicts.Dict`: the map plus its keys in insertion order. The per-class
result dicts of `get_attributes` and `get_associations` are plain maps. The HTTP calls are modelled as the sequences of requests that would be
sent, in the order they would be sent.

Modules that follow a source file:

- `Classes`: `classes.py`.
- `DataTypes`: `data_types.py`.
- `Attributes`: `attributes.py`.
- `Associations`: `associations.py`.
- `BaserowInit`: `create_tables`, `create_link_rows` and the extraction part of
  `create_baserow_database`.

Supporting modules:

- `Elements`: the XML input as records.
- `Dicts`: the insertion-ordered dict.
- `Errors`: the exceptions.
- `Wrappers`: `Result` and `Option`.
- `Text`: `str.title`, `str.lower` and `str.replace` on ASCII.

### Behaviour worth knowing

- **Duplicate class ids.** The dict comprehension in `classes.py` keeps the *last*
  element with a given id, at the position where the id *first* appeared
  (`Classes.LastDuplicateWins`, `Classes.RepeatedIdKeepsPosition`).
- **Type resolution.** Attribute type ids are looked up among data types only. A non-empty
  id that no data type carries, such as an enumeration's id, raises `StopIteration`
  (`Attributes.UnknownTypeIdRaises`).
- **Enumeration matching.** The membership test ignores case, but the enumeration is then
  looked up by exact name. So a type name that matches an enumeration only when case is
  ignored raises `StopIteration` (`Attributes.CaseOnlyEnumerationMatchFails`).
- **Order of the association cases.** The "one end on the current class, uniform
  navigability" case is checked before the "both ends on the current class" case.
- **The third guard always holds.** The guard `end["class_id"] != end` compares a string
  with a dict, so it is true for every list of ends (`Associations.ThirdGuardAlwaysHolds`).
  As a result:
  - every association that is not in the first two cases appends *both* ends to the
    current class's list;
  - the one-direction fallback after the third guard is never reached;
  - an association owned by A, with A's end navigable and B's end not, puts both ends on
    A's list and nothing on B's (`Associations.MixedNavigabilityStaysOnOwner`).
- **Id pairs.** `create_tables` records an id pair for every class before
  `create_link_rows` looks any up. Every link target is a class, so "Id pair not found"
  cannot happen in a whole run (`BaserowInit.DatabaseSucceedsWhenExtractionDoes`).

## Model

| member | source | states |
|---|---|---|
| Dicts.Dict.Put | app/xmi_reader/classes.py:10-14 | `d[k] = v` replaces the value of `k`; a new key goes last, and an existing key keeps its place |
| Classes.GetClasses | app/xmi_reader/classes.py:6-14 | the keys are exactly the ids of class elements; each value is a class element of the input carrying that id; keys are listed once each |
| Classes.LastDuplicateWins | app/xmi_reader/classes.py:10-14 | with repeated ids, the value for an id is the last class element carrying it |
| Classes.KeyOrderIsFirstOccurrence | app/xmi_reader/classes.py:10-14 | the key order of any prefix of the elements is a prefix of the final key order, so keys appear in order of first occurrence |
| Classes.RepeatedIdKeepsPosition | app/xmi_reader/classes.py:10-14 | a class element repeating the id of an earlier class element replaces that id's value and leaves the key order unchanged |
| DataTypes.EnumerationOf | app/xmi_reader/data_types.py:29-35 | an enumeration keeps the element's id and name; its literal set holds exactly the literal names, with duplicates collapsed so it is no larger than the list |
| DataTypes.DataTypeOf | app/xmi_reader/data_types.py:61-64 | a data type keeps the element's id and name |
| DataTypes.GetDataTypes | app/xmi_reader/data_types.py:39-64 | an entry is in the catalog exactly when some data-type element yields it; there are never more entries than elements |
| DataTypes.GetEnumerations | app/xmi_reader/data_types.py:6-36 | an entry is in the catalog exactly when some enumeration element yields it; there are never more entries than elements |
| DataTypes.DataTypesInEncounterOrder | app/xmi_reader/data_types.py:58-64 | the data-type catalog of a concatenation is the concatenation of the catalogs, so entries follow document order |
| DataTypes.EnumerationsInEncounterOrder | app/xmi_reader/data_types.py:26-36 | the enumeration catalog of a concatenation is the concatenation of the catalogs |
| DataTypes.CatalogsAreDisjoint | app/xmi_reader/data_types.py:26-36 | classes, data types and enumerations together hold at most one entry per packaged element |
| Text.Lower | app/xmi_reader/attributes.py:21 | lower-casing keeps the length and lower-cases each character on its own |
| Text.TitleAfter | app/xmi_reader/associations.py:101 | the left-to-right title-casing scan yields, at every position after the first, the character that position's neighbourhood rule selects |
| Text.Title | app/xmi_reader/attributes.py:20 | title-casing keeps the length; a letter after a letter is lower-cased, any other letter is upper-cased, and other characters are kept |
| Text.ReplaceChar | app/xmi_reader/attributes.py:20 | replacing `_` by a space keeps the length and changes exactly the underscores |
| Text.DisplayName | app/xmi_reader/attributes.py:20 | the display name keeps the length, turns each underscore into a space and title-cases every other position, so no underscore is left |
| Text.TitleIdempotent | app/xmi_reader/attributes.py:20 | title-casing a title-cased name changes nothing |
| Text.TitleKeepsLowerForm | app/xmi_reader/attributes.py:20-21 | title-casing never changes a name's lower-case form |
| Text.DisplayNameIdempotent | app/xmi_reader/attributes.py:20 | a display name contains no underscore, and normalising it again changes nothing |
| Text.DisplayNameOfSnakeCase | app/xmi_reader/attributes.py:20 | two lower-case words joined by `_` display as both words capitalised and separated by a space, as `first_name` becomes `First Name` |
| Text.DecodeSpaces | app/xmi_reader/associations.py:81 | the text before the first `%20` is kept, that `%20` becomes a space, and the rest is decoded the same way; a name without `%20` is unchanged; the result never grows and has no `%20` left |
| Text.DecodeSpacesSplice | app/xmi_reader/associations.py:81 | `a + "%20" + b`, with no `%20` in `a`, decodes to `a + " " + ` the decoding of `b` |
| Text.DecodeSpacesIdempotent | app/xmi_reader/associations.py:81 | decoding a decoded name changes nothing |
| Attributes.FirstNamed | app/xmi_reader/attributes.py:96 | returns the position of the first enumeration with exactly that name, and none exactly when no enumeration has it |
| Attributes.SelectOptions | app/xmi_reader/attributes.py:98-101 | there is one option per literal, each with a colour from the 15-colour palette |
| Attributes.GetField | app/xmi_reader/attributes.py:17-108 | the field is named by the display name; a number field exactly for the seven number type names, with 5 decimals exactly for float/real/double and non-negative exactly for the unsigned names; multi-select exactly when no keyword matches and an enumeration matches ignoring case, with its options being that enumeration's literals; text exactly when nothing matches; failure exactly when the case-insensitive match has no exact-name enumeration |
| Attributes.KeywordBeatsEnumeration | app/xmi_reader/attributes.py:24-95 | a keyword type name gives the same field whatever enumerations exist, because the keywords are checked first |
| Attributes.TypeMatchingIgnoresCase | app/xmi_reader/attributes.py:21-93 | two type names with the same lower-case form give the same field, unless they reach the enumeration branch |
| Attributes.CaseOnlyEnumerationMatchFails | app/xmi_reader/attributes.py:95-96 | the type `gender` with only an enumeration `Gender` raises instead of giving a field |
| Attributes.DateVariants | app/xmi_reader/attributes.py:55-80 | date has no time; time and datetime include a 24-hour time; last modified and created on include the time in Europe/Zagreb; all use the EU date format |
| Attributes.RatingIsFixed | app/xmi_reader/attributes.py:44-48 | a rating field is always 5 yellow stars |
| Attributes.SelectOptionsPerLiteral | app/xmi_reader/attributes.py:95-101 | an enumeration-typed field has exactly one option per literal of the first exact-name enumeration, each coloured from the palette |
| Attributes.UntypedIsText | app/xmi_reader/attributes.py:103-105 | an untyped attribute becomes a text field unless some enumeration is nameless |
| Attributes.IntegerIsSignedWholeNumber | app/xmi_reader/attributes.py:24-29 | an `Integer` attribute becomes a signed number field with no decimals |
| Attributes.FixedKeywordKinds | app/xmi_reader/attributes.py:31-92 | in any case, blob and long text give a long-text field, url a URL field, email an email field, boolean and bool a boolean field, file a file field, the four phone names a phone-number field, and the two collaborator names a collaborators field |
| Attributes.FirstDataTypeIndex | app/xmi_reader/attributes.py:134-135 | returns the position of the first data type with that id, and none exactly when no data type carries it |
| Attributes.ResolveTypeName | app/xmi_reader/attributes.py:132-135 | an untyped attribute resolves to ""; otherwise it succeeds exactly when some data type has the id, and then gives the first such data type's name |
| Attributes.AttributeField | app/xmi_reader/attributes.py:132-139 | an untyped attribute gets the field of the empty type; a typed one gets the field of the first data type with its id, or raises StopIteration when there is none; the field is named by the attribute's display name; the only failures are the two StopIterations |
| Attributes.ClassFields | app/xmi_reader/attributes.py:129-139 | succeeds exactly when every attribute's field does; one field per attribute, in declaration order |
| Attributes.FillAttributes | app/xmi_reader/attributes.py:126-139 | succeeds exactly when every listed class's attributes do; fills exactly the listed classes' lists with their fields and leaves every other list alone |
| Attributes.GetAttributes | app/xmi_reader/attributes.py:111-141 | succeeds exactly when every attribute of every class yields a field; one list per class id, holding each attribute's field in declaration order |
| Attributes.UnknownTypeIdRaises | app/xmi_reader/attributes.py:133-135 | one attribute typed by an id that no data type carries makes the whole mapping raise |
| Associations.GetNavigable | app/xmi_reader/associations.py:5-15 | navigable exactly for "true", not navigable exactly for "false", unspecified otherwise |
| Associations.ClassName | app/xmi_reader/associations.py:72-81 | the text before the first `%20` in the class name is kept, that `%20` becomes a space, and the rest is decoded the same way; a name without `%20` is unchanged; no `%20` is left, and decoding again changes nothing |
| Associations.BuildEnd | app/xmi_reader/associations.py:100-106 | fails with KeyError exactly when the end's type is not a class id; otherwise builds the end with the display role name, the class id and decoded class name, the aggregation, the navigability, and no related-field flag |
| Associations.BuildEnds | app/xmi_reader/associations.py:100-106 | succeeds exactly when every end's type is a class id; builds one end per `ownedEnd`, in order |
| Associations.SolveNavigable | app/xmi_reader/associations.py:18-69 | fails with IndexError exactly when there are no ends, or one end that is not on the current class; on success only the current class's list changes, and it grows by one or two entries, each one of the ends up to its flag |
| Associations.PyNotEqual | app/xmi_reader/associations.py:54 | Python's `!=` holds exactly when the values differ, so a string and a dict always compare unequal |
| Associations.ThirdGuardAlwaysHolds | app/xmi_reader/associations.py:54 | the third guard holds for every list of ends |
| Associations.OneEndOnClass | app/xmi_reader/associations.py:33-44 | for any list with an end on the current class, an end off it and uniform navigability, `ends[0]` if it is off the class, else `ends[1]`, is appended with the related-field flag set; with two ends that is the end on the other class |
| Associations.SelfAssociation | app/xmi_reader/associations.py:47-50 | for any non-empty list of ends all on the current class, a lone end included, only the first end is appended, unchanged |
| Associations.BothEndsAppended | app/xmi_reader/associations.py:54-59 | for every other list of at least two ends, exactly `ends[0]` then `ends[1]` are appended, each flagged exactly when its navigability is unspecified; later ends are ignored |
| Associations.MixedNavigabilityStaysOnOwner | app/xmi_reader/associations.py:54-59 | an association between two different classes, owned by the class of the navigable end `a` with the other end `b` not navigable, puts both ends on the owner's list unflagged and leaves the other class's list alone |
| Associations.SolveIsLocal | app/xmi_reader/associations.py:18-69 | what one association appends does not depend on what the lists already hold |
| Associations.AssociateMembers | app/xmi_reader/associations.py:96-108 | walking a class's members changes only that class's list, only by extending it, and by at most two entries per association |
| Associations.MemberLinks | app/xmi_reader/associations.py:96-108 | the links a class's own associations produce: none for no associations, and at most two per association |
| Associations.MembersAreLocal | app/xmi_reader/associations.py:96-108 | walking a class's members from any dict appends exactly the links that class's members produce on their own |
| Associations.AssociateClasses | app/xmi_reader/associations.py:95-108 | succeeds exactly when every class's members succeed; each class's list is exactly its own members' links |
| Associations.GetAssociations | app/xmi_reader/associations.py:84-110 | there is one list per class id; it succeeds exactly when every class's associations resolve, and each list holds exactly that class's own links |
| Associations.AssociateMembersAppend | app/xmi_reader/associations.py:99-108 | walking `front + back` is walking `front` and then `back` |
| Associations.LinksInAssociationOrder | app/xmi_reader/associations.py:99-108 | a class's links are those of its earlier associations followed by those of its later ones, and the walk fails exactly when either part fails |
| Associations.MembersTargetClasses | app/xmi_reader/associations.py:99-108 | every entry a class's members add names an existing class and carries its decoded name |
| Associations.LinkTargetsAreClasses | app/xmi_reader/associations.py:84-110 | every entry of every list names an existing class and carries its decoded name |
| BaserowInit.FindTable | app/id_pairs_utils.py:28-37 | succeeds exactly when the class has a recorded table, and returns its id; otherwise raises "Id pair not found" |
| BaserowInit.LinkFieldOf | app/baserow_init.py:163-173 | a `link_row` field to the target class's table, named by the role name or else the class name, carrying the related-field flag only when the entry has one; fails exactly when the target has no table |
| BaserowInit.LinkFields | app/baserow_init.py:161-176 | one link field per entry, in order, all created on the class's own table |
| BaserowInit.LinkBlock | app/baserow_init.py:161-176 | succeeds exactly when every entry's target has a table, and then yields the class's link fields; a failure names a target without a table |
| BaserowInit.LinkCalls | app/baserow_init.py:155-176 | there are as many link-field calls as entries over all classes |
| BaserowInit.CreateLinkRows | app/baserow_init.py:155-185 | succeeds exactly when every class has a table and an association list whose every target has a table, and then yields the per-class blocks in class order |
| BaserowInit.LinkRowsLayout | app/baserow_init.py:157-176 | the k-th class's link fields are consecutive, in association-list order, and come right after those of the earlier classes |
| BaserowInit.SelfAssociationLinkHasNoFlag | app/baserow_init.py:170-173 | a self-association gives one link field without the `has_related_field` key |
| BaserowInit.TableBlock | app/baserow_init.py:76-94 | one table named by the decoded class name with a `Primary key` column, followed by one field call per attribute field in order |
| BaserowInit.FieldCalls | app/baserow_init.py:93-94 | one field-creation call per field, in order |
| BaserowInit.TableCalls | app/baserow_init.py:74-94 | there is one call per class plus one per field over all classes |
| BaserowInit.CreateTables | app/baserow_init.py:74-94 | succeeds exactly when every class has an attribute list, and then yields the per-class blocks in class order |
| BaserowInit.TablesLayout | app/baserow_init.py:76-94 | the k-th class's table and field calls are consecutive and come right after every call for the earlier classes |
| BaserowInit.RecordedPairs | app/baserow_init.py:76-90 | one id pair is recorded for each class, holding the id of the table created for it |
| BaserowInit.RequestsNeedOnlyTables | app/baserow_init.py:274-276 | over any set of id pairs, and with lists for every class whose targets are classes, table creation cannot fail and link creation fails exactly when some class has no pair |
| BaserowInit.Provision | app/baserow_init.py:271-276 | on success, the table calls are those of the extracted attributes in class order, and the link calls are those of the extracted associations over the recorded pairs, every target resolving |
| BaserowInit.CreateBaserowDatabase | app/baserow_init.py:267-276 | on success, attribute extraction succeeded and the table calls are those of the extracted attributes, one block per class in class order |
| BaserowInit.DatabaseLinkCalls | app/baserow_init.py:271-276 | on success, the link-field calls are those of the extracted associations, one block per class in class order, over the pairs recorded while creating the tables |
| BaserowInit.ProvisioningSucceedsWhenExtractionDoes | app/baserow_init.py:271-276 | after the catalogs, provisioning succeeds exactly when association and attribute extraction do: table creation cannot fail, and the pairs it records cover every link target |
| BaserowInit.DatabaseSucceedsWhenExtractionDoes | app/baserow_init.py:267-276 | the whole run from the packaged elements succeeds exactly when association and attribute extraction do |

## Left out

- The key order of the per-class result dicts is left out, so those dicts are plain maps.
  Nothing iterates them: `create_tables` and `create_link_rows` iterate `classes.items()`
  (`app/baserow_init.py:76` and `:157`) and only index `attributes[id_]` and
  `associations[id_]`.
- XML parsing and `get_packaged_elements` (`app/xmi_reader/packaged_elements.py`) are not
  part of this model. The packaged elements are an input.
- `getElementsByTagName` returns all descendants. The model treats the owned members,
  ends, attributes and literals of an element as its direct children, which is the shape
  an XMI export has.
- The Baserow HTTP client (`app/baserow_client.py`) is left out, and so is everything in
  `create_baserow_database` before line 267:
  - the session token and its validation;
  - the group check;
  - database creation.
  The reason is that these are network calls.
- The response status checks that raise `BadFieldException` are left out for the same
  reason. Every request is taken to succeed.
- The table ids Baserow assigns come from the server. They are the `tableId` parameter.
  The pairs `create_tables` records from them are computed (`BaserowInit.RecordedPairs`),
  and `create_link_rows` reads those pairs back.
- Id pairs stored for the same model by an earlier run are left out. The database query
  behind `find_table_id_for_class` could return such an older pair. The model assumes
  the lookup finds the pair recorded in this run.
- `print` output is left out.
- The Flask API, authentication, the ORM models and `delete_baserow_database` are left out,
  because they are outside the extraction and provisioning logic.
- The commented-out helpers in `baserow_init.py` are not code and are left out.
- The colour `random.choice` draws is left out. It is a caller-supplied function `pick`
  from literal to palette position.
- The order of the select options is left out: `get_field` iterates a Python set
  (`app/xmi_reader/attributes.py:98-101`). The
  options are a map from literal to colour.
- `Text.Title` and `Text.Lower` follow `str.title` and `str.lower` on ASCII letters
  only. Python's Unicode case mappings and its treatment of cased non-ASCII characters
  are not modelled.
- The one-direction fallback at `app/xmi_reader/associations.py:63-69` is not modelled,
  because the guard before it always holds and the fallback is never reached.
- A raised exception ends the run, but requests already sent (tables created, id pairs
  stored) are not undone. The model returns only the failure, not the partial effects.

=== FILE: associations.dfy ===
/** `get_navigable`, `solve_navigable`, `get_class_name` and `get_associations`: the
    per-class lists of association ends that become link fields. */
module Associations {
  import opened Wrappers
  import opened Errors
  import opened Text
  import opened Elements
  import opened Dicts

  datatype Navigability = Navigable | NotNavigable | Unspecified

  /** `get_navigable(end)`: the tri-state reading of the `isNavigable` attribute. */
  function GetNavigable(isNavigable: string): (n: Navigability)
    ensures n == Navigable <==> isNavigable == "true"
    ensures n == NotNavigable <==> isNavigable == "false"
    ensures n == Unspecified <==> isNavigable != "true" && isNavigable != "false"
  {
    if isNavigable == "true" then Navigable
    else if isNavigable == "false" then NotNavigable
    else Unspecified
  }

  /** The dict the resolver builds for one association end. `hasRelatedField` is the key
      the resolver may add; None means the key is absent. */
  datatype End = End(
    name: string,
    classId: string,
    className: string,
    aggregation: string,
    navigable: Navigability,
    hasRelatedField: Option<bool>)

  /** Two ends that agree on everything except the `has_related_field` key. */
  predicate SameEnd(a: End, b: End) {
    a.(hasRelatedField := None) == b.(hasRelatedField := None)
  }

  /** `get_class_name(class_)`: the class name with every `%20` decoded to a space. */
  function ClassName(c: Element): (r: string)
    ensures forall i :: !EncodedSpaceAt(r, i)
    ensures (forall i :: !EncodedSpaceAt(c.name, i)) ==> r == c.name
    ensures forall i :: FirstEncodedSpace(c.name, i) ==>
              r == c.name[..i] + " " + DecodeSpaces(c.name[i + 3..])
    ensures DecodeSpaces(r) == r
  {
    DecodeSpacesIdempotent(c.name);
    DecodeSpaces(c.name)
  }

  /** The end dict built from one `ownedEnd`; looking up its class raises KeyError when
      the `type` is not a class id. */
  function BuildEnd(node: EndNode, classes: Dict<Element>): (r: Result<End, Error>)
    ensures r.Success? <==> node.typeRef in classes.entries
    ensures r.Failure? ==> r.error == UnknownClass(node.typeRef)
    ensures r.Success? ==>
              && r.value.name == DisplayName(node.name)
              && r.value.classId == node.typeRef
              && r.value.className == ClassName(classes.entries[node.typeRef])
              && r.value.aggregation == node.aggregation
              && r.value.navigable == GetNavigable(node.isNavigable)
              && r.value.hasRelatedField.None?
  {
    if node.typeRef in classes.entries then
      Success(End(
        DisplayName(node.name),
        node.typeRef,
        ClassName(classes.entries[node.typeRef]),
        node.aggregation,
        GetNavigable(node.isNavigable),
        None))
    else
      Failure(UnknownClass(node.typeRef))
  }

  /** The list comprehension over a member's ends; the first unknown class raises. */
  function BuildEnds(nodes: seq<EndNode>, classes: Dict<Element>): (r: Result<seq<End>, Error>)
    ensures r.Success? <==> forall i :: 0 <= i < |nodes| ==> nodes[i].typeRef in classes.entries
    ensures r.Success? ==> |r.value| == |nodes|
    ensures r.Success? ==> forall i :: 0 <= i < |nodes| ==> BuildEnd(nodes[i], classes) == Success(r.value[i])
    decreases |nodes|
  {
    if nodes == [] then Success([])
    else
      var end :- BuildEnd(nodes[0], classes);
      var rest :- BuildEnds(nodes[1..], classes);
      Success([end] + rest)
  }

  // ---------------------------------------------------------------------------
  // solve_navigable

  predicate SomeEndOn(ends: seq<End>, classId: string) {
    exists i :: 0 <= i < |ends| && ends[i].classId == classId
  }

  predicate SomeEndOff(ends: seq<End>, classId: string) {
    exists i :: 0 <= i < |ends| && ends[i].classId != classId
  }

  predicate AllEndsOn(ends: seq<End>, classId: string) {
    forall i :: 0 <= i < |ends| ==> ends[i].classId == classId
  }

  predicate AllNavigable(ends: seq<End>) {
    forall i :: 0 <= i < |ends| ==> ends[i].navigable == Navigable
  }

  predicate AllUnspecified(ends: seq<End>) {
    forall i :: 0 <= i < |ends| ==> ends[i].navigable == Unspecified
  }

  /** The two kinds of Python object compared by the third guard of `solve_navigable`:
      a string (the end's class id) and a dict (the end itself). */
  datatype PyValue = PyStr(s: string) | PyDict(end: End)

  /** Python's `!=`: a string and a dict are never equal. */
  function PyNotEqual(a: PyValue, b: PyValue): (r: bool)
    ensures r <==> a != b
    ensures a.PyStr? != b.PyStr? ==> r
  {
    match (a, b)
    case (PyStr(x), PyStr(y)) => x != y
    case (PyDict(x), PyDict(y)) => x != y
    case _ => true
  }

  /** `all(end["class_id"] != end for end in ends)`, which compares each class id with
      the end dict itself. */
  predicate ThirdCaseGuard(ends: seq<End>) {
    forall i :: 0 <= i < |ends| ==> PyNotEqual(PyStr(ends[i].classId), PyDict(ends[i]))
  }

  /** `class_associations[classId].append(e)` */
  function Append(acc: map<string, seq<End>>, classId: string, e: End): map<string, seq<End>>
    requires classId in acc
  {
    acc[classId := acc[classId] + [e]]
  }

  /** `solve_navigable(ends, classId, acc)` for the association `ends` owned by class
      `classId`. The cases are checked in this order. The third guard always holds,
      so the one-direction fallback after it is never reached and every entry goes to the
      current class's list. */
  function SolveNavigable(ends: seq<End>, classId: string, acc: map<string, seq<End>>)
    : (r: Result<map<string, seq<End>>, Error>)
    requires classId in acc
    ensures r.Success? <==> |ends| >= 2 || (|ends| == 1 && ends[0].classId == classId)
    ensures r.Failure? ==> r.error == MissingEnd
    ensures r.Success? ==> r.value.Keys == acc.Keys
    ensures r.Success? ==> forall k :: k in acc && k != classId ==> r.value[k] == acc[k]
    ensures r.Success? ==> acc[classId] < r.value[classId] && |r.value[classId]| <= |acc[classId]| + 2
    ensures r.Success? ==> forall j :: |acc[classId]| <= j < |r.value[classId]| ==>
              exists i :: 0 <= i < |ends| && SameEnd(r.value[classId][j], ends[i])
  {
    if SomeEndOn(ends, classId) && SomeEndOff(ends, classId) && (AllNavigable(ends) || AllUnspecified(ends)) then
      var other := if ends[0].classId != classId then ends[0] else ends[1];
      assert SameEnd(other.(hasRelatedField := Some(true)), other);
      Success(Append(acc, classId, other.(hasRelatedField := Some(true))))
    else if AllEndsOn(ends, classId) then
      if |ends| == 0 then Failure(MissingEnd)
      else
        assert SameEnd(ends[0], ends[0]);
        Success(Append(acc, classId, ends[0]))
    else if ThirdCaseGuard(ends) then
      if |ends| < 2 then Failure(MissingEnd)
      else
        var first := ends[0].(hasRelatedField := Some(ends[0].navigable == Unspecified));
        var second := ends[1].(hasRelatedField := Some(ends[1].navigable == Unspecified));
        assert SameEnd(first, ends[0]) && SameEnd(second, ends[1]);
        Success(Append(Append(acc, classId, first), classId, second))
    else
      assert false;
      Failure(MissingEnd)
  }

  /** The third guard holds of every list of ends. */
  lemma ThirdGuardAlwaysHolds(ends: seq<End>)
    ensures ThirdCaseGuard(ends)
  {
  }

  /** Case 1: some end is on the current class, some end is not, and navigability is all
      explicit `true` or all unspecified. The first end off the class among the first two
      (`ends[0]` if it is off, else `ends[1]`) is appended, flagged to get a related field.
      With exactly two ends that is the end on the other class. */
  lemma OneEndOnClass(ends: seq<End>, classId: string, acc: map<string, seq<End>>)
    requires classId in acc
    requires SomeEndOn(ends, classId) && SomeEndOff(ends, classId)
    requires AllNavigable(ends) || AllUnspecified(ends)
    ensures |ends| >= 2
    ensures var other := if ends[0].classId != classId then ends[0] else ends[1];
            SolveNavigable(ends, classId, acc)
            == Success(acc[classId := acc[classId] + [other.(hasRelatedField := Some(true))]])
    ensures |ends| == 2 ==> (if ends[0].classId != classId then ends[0] else ends[1]).classId != classId
  {
  }

  /** Case 2: every end is on the current class. The first end is appended unchanged,
      so it carries no `has_related_field` key when it came from BuildEnd. */
  lemma SelfAssociation(ends: seq<End>, classId: string, acc: map<string, seq<End>>)
    requires classId in acc && |ends| >= 1
    requires AllEndsOn(ends, classId)
    ensures SolveNavigable(ends, classId, acc) == Success(acc[classId := acc[classId] + [ends[0]]])
  {
    assert !SomeEndOff(ends, classId);
  }

  /** Every other list of at least two ends: the first two are appended to the current
      class, in order, each flagged to get a related field exactly when its navigability
      is unspecified. Any further ends are ignored. */
  lemma BothEndsAppended(ends: seq<End>, classId: string, acc: map<string, seq<End>>)
    requires classId in acc && |ends| >= 2
    requires !AllEndsOn(ends, classId)
    requires !(SomeEndOn(ends, classId) && SomeEndOff(ends, classId)
               && (AllNavigable(ends) || AllUnspecified(ends)))
    ensures SolveNavigable(ends, classId, acc) == Success(acc[classId := acc[classId] + [
              ends[0].(hasRelatedField := Some(ends[0].navigable == Unspecified)),
              ends[1].(hasRelatedField := Some(ends[1].navigable == Unspecified))]])
  {
    var first := ends[0].(hasRelatedField := Some(ends[0].navigable == Unspecified));
    var second := ends[1].(hasRelatedField := Some(ends[1].navigable == Unspecified));
    assert SolveNavigable(ends, classId, acc) == Success(Append(Append(acc, classId, first), classId, second));
    assert acc[classId] + [first] + [second] == acc[classId] + [first, second];
    assert Append(Append(acc, classId, first), classId, second) == acc[classId := acc[classId] + [first, second]];
  }

  /** An association owned by `a`'s class between two different classes, `a` navigable
      and `b` not: both ends land on the owner's list with no related field, and the other
      class's list is untouched. */
  lemma MixedNavigabilityStaysOnOwner(a: End, b: End, acc: map<string, seq<End>>)
    requires a.classId != b.classId
    requires a.navigable == Navigable && b.navigable == NotNavigable
    requires a.classId in acc && b.classId in acc
    ensures var r := SolveNavigable([a, b], a.classId, acc);
            && r.Success?
            && r.value[a.classId] == acc[a.classId] + [a.(hasRelatedField := Some(false)), b.(hasRelatedField := Some(false))]
            && r.value[b.classId] == acc[b.classId]
  {
    var ends := [a, b];
    assert ends[1].classId != a.classId && ends[0].navigable != ends[1].navigable;
    BothEndsAppended(ends, a.classId, acc);
  }

  /** What one association adds to the current class's list does not depend on what the
      list, or any other list, already holds. */
  lemma SolveIsLocal(ends: seq<End>, classId: string, acc: map<string, seq<End>>)
    requires classId in acc
    ensures var own := SolveNavigable(ends, classId, map[classId := []]);
            && SolveNavigable(ends, classId, acc).Success? == own.Success?
            && (own.Success? ==>
                  SolveNavigable(ends, classId, acc).value[classId] == acc[classId] + own.value[classId])
  {
  }

  // ---------------------------------------------------------------------------
  // get_associations

  /** The loop over one class's owned members, with `acc` the dict being filled. */
  function AssociateMembers(classes: Dict<Element>, classId: string, members: seq<MemberNode>,
                            acc: map<string, seq<End>>): (r: Result<map<string, seq<End>>, Error>)
    requires classId in acc
    ensures r.Success? ==> r.value.Keys == acc.Keys
    ensures r.Success? ==> forall k :: k in acc && k != classId ==> r.value[k] == acc[k]
    ensures r.Success? ==> acc[classId] <= r.value[classId]
    ensures r.Success? ==> |r.value[classId]| <= |acc[classId]| + 2 * |members|
    decreases |members|
  {
    if members == [] then Success(acc)
    else
      var ends :- BuildEnds(members[0].ends, classes);
      var next :- SolveNavigable(ends, classId, acc);
      AssociateMembers(classes, classId, members[1..], next)
  }

  /** The link list a class's own members produce from an empty list: no associations
      give no links, and each association gives at most two. */
  function MemberLinks(classes: Dict<Element>, classId: string, members: seq<MemberNode>)
    : (r: Result<seq<End>, Error>)
    ensures members == [] ==> r == Success([])
    ensures r.Success? ==> |r.value| <= 2 * |members|
  {
    var filled :- AssociateMembers(classes, classId, members, map[classId := []]);
    Success(filled[classId])
  }

  /** Running a class's members on any dict appends exactly that class's own links. */
  lemma {:induction false} MembersAreLocal(classes: Dict<Element>, classId: string,
                                           members: seq<MemberNode>, acc: map<string, seq<End>>)
    requires classId in acc
    ensures var r := AssociateMembers(classes, classId, members, acc);
            && r.Success? == MemberLinks(classes, classId, members).Success?
            && (r.Success? ==> r.value[classId] == acc[classId] + MemberLinks(classes, classId, members).value)
    decreases |members|
  {
    if members != [] {
      var own: map<string, seq<End>> := map[classId := []];
      var built := BuildEnds(members[0].ends, classes);
      if built.Success? {
        var ends := built.value;
        SolveIsLocal(ends, classId, acc);
        var s1 := SolveNavigable(ends, classId, acc);
        var s2 := SolveNavigable(ends, classId, own);
        if s1.Success? {
          MembersAreLocal(classes, classId, members[1..], s1.value);
          MembersAreLocal(classes, classId, members[1..], s2.value);
        }
      }
    }
  }

  /** The loop over the classes in `ids`. */
  function AssociateClasses(classes: Dict<Element>, ids: seq<string>, acc: map<string, seq<End>>)
    : (r: Result<map<string, seq<End>>, Error>)
    requires Distinct(ids)
    requires forall k :: k in ids ==> k in classes.entries && k in acc && acc[k] == []
    ensures r.Success? <==> forall k :: k in ids ==>
              MemberLinks(classes, k, classes.entries[k].members).Success?
    ensures r.Success? ==> r.value.Keys == acc.Keys
    ensures r.Success? ==> forall k :: k in acc && k !in ids ==> r.value[k] == acc[k]
    ensures r.Success? ==> forall k :: k in ids ==>
              r.value[k] == MemberLinks(classes, k, classes.entries[k].members).value
    decreases |ids|
  {
    if ids == [] then Success(acc)
    else
      var id := ids[0];
      MembersAreLocal(classes, id, classes.entries[id].members, acc);
      var next :- AssociateMembers(classes, id, classes.entries[id].members, acc);
      AssociateClasses(classes, ids[1..], next)
  }

  /** `get_associations(classes)`: one list per class id, each holding exactly the links
      of that class's own associations, in association order. */
  function GetAssociations(classes: Dict<Element>): (r: Result<map<string, seq<End>>, Error>)
    requires classes.Valid()
    ensures r.Success? <==> forall id :: id in classes.entries ==>
              MemberLinks(classes, id, classes.entries[id].members).Success?
    ensures r.Success? ==> r.value.Keys == classes.entries.Keys
    ensures r.Success? ==> forall id :: id in r.value ==>
              r.value[id] == MemberLinks(classes, id, classes.entries[id].members).value
  {
    AssociateClasses(classes, classes.keys, EmptyLists(classes.keys))
  }

  /** Running the members `front + back` is running `front`, then `back` on the result. */
  lemma {:induction false} AssociateMembersAppend(classes: Dict<Element>, classId: string,
                                                  front: seq<MemberNode>, back: seq<MemberNode>,
                                                  acc: map<string, seq<End>>)
    requires classId in acc
    ensures var r := AssociateMembers(classes, classId, front, acc);
            AssociateMembers(classes, classId, front + back, acc)
            == (if r.Success? then AssociateMembers(classes, classId, back, r.value) else r)
    decreases |front|
  {
    if front == [] {
      assert front + back == back;
    } else {
      assert (front + back)[0] == front[0];
      assert (front + back)[1..] == front[1..] + back;
      var built := BuildEnds(front[0].ends, classes);
      if built.Success? {
        var s := SolveNavigable(built.value, classId, acc);
        if s.Success? {
          AssociateMembersAppend(classes, classId, front[1..], back, s.value);
        }
      }
    }
  }

  /** A class's list is its first associations' links followed by the rest's. */
  lemma LinksInAssociationOrder(classes: Dict<Element>, classId: string,
                                front: seq<MemberNode>, back: seq<MemberNode>)
    ensures MemberLinks(classes, classId, front + back).Success? <==>
              MemberLinks(classes, classId, front).Success? && MemberLinks(classes, classId, back).Success?
    ensures MemberLinks(classes, classId, front + back).Success? ==>
              MemberLinks(classes, classId, front + back).value
              == MemberLinks(classes, classId, front).value + MemberLinks(classes, classId, back).value
  {
    var own: map<string, seq<End>> := map[classId := []];
    AssociateMembersAppend(classes, classId, front, back, own);
    var r := AssociateMembers(classes, classId, front, own);
    if r.Success? {
      MembersAreLocal(classes, classId, back, r.value);
    }
  }

  /** An end that names an existing class and carries that class's normalised name. */
  ghost predicate Targets(e: End, classes: Dict<Element>) {
    e.classId in classes.entries && e.className == ClassName(classes.entries[e.classId])
  }

  lemma {:induction false} MembersTargetClasses(classes: Dict<Element>, classId: string,
                                                members: seq<MemberNode>, acc: map<string, seq<End>>)
    requires classId in acc
    requires forall e :: e in acc[classId] ==> Targets(e, classes)
    ensures var r := AssociateMembers(classes, classId, members, acc);
            r.Success? ==> forall e :: e in r.value[classId] ==> Targets(e, classes)
    decreases |members|
  {
    if members != [] {
      var built := BuildEnds(members[0].ends, classes);
      if built.Success? {
        var ends := built.value;
        var s := SolveNavigable(ends, classId, acc);
        if s.Success? {
          forall e | e in s.value[classId]
            ensures Targets(e, classes)
          {
            var j :| 0 <= j < |s.value[classId]| && s.value[classId][j] == e;
            if j >= |acc[classId]| {
              var i :| 0 <= i < |ends| && SameEnd(e, ends[i]);
              assert BuildEnd(members[0].ends[i], classes) == Success(ends[i]);
            } else {
              assert e in acc[classId];
            }
          }
          MembersTargetClasses(classes, classId, members[1..], s.value);
        }
      }
    }
  }

  /** Every end in every list names a known class and carries its decoded name. */
  lemma LinkTargetsAreClasses(classes: Dict<Element>)
    requires classes.Valid()
    ensures var r := GetAssociations(classes);
            r.Success? ==> forall id, e :: id in r.value && e in r.value[id] ==> Targets(e, classes)
  {
    var r := GetAssociations(classes);
    if r.Success? {
      forall id | id in r.value
        ensures forall e :: e in r.value[id] ==> Targets(e, classes)
      {
        MembersTargetClasses(classes, id, classes.entries[id].members, map[id := []]);
      }
    }
  }
}

=== FILE: attributes.dfy ===
/** `get_field` and `get_attributes`: the field description derived from each owned
    attribute of each class. */
module Attributes {
  import opened Wrappers
  import opened Errors
  import opened Text
  import opened Elements
  import opened Dicts
  import opened DataTypes

  /** The palette select-option colours are drawn from. */
  const COLORS: seq<string> := [
    "light-blue", "blue", "dark-blue",
    "light-green", "green", "dark-green",
    "light-yellow", "yellow", "dark-yellow",
    "light-red", "red", "dark-red",
    "light-gray", "gray", "dark-gray"]

  /** A position in COLORS: the outcome of one `random.choice(COLORS)`. */
  type ColorIndex = i: int | 0 <= i < 15

  const DATE_FORMAT := "EU"
  const TIMEZONE := "Europe/Zagreb"

  const NUMBER_TYPES: seq<string> :=
    ["integer", "int", "unsigned integer", "unsigned int", "float", "real", "double"]
  const UNSIGNED_TYPES: seq<string> := ["unsigned integer", "unsigned int"]
  const DECIMAL_TYPES: seq<string> := ["float", "real", "double"]
  const LONG_TEXT_TYPES: seq<string> := ["blob", "long text"]
  const BOOLEAN_TYPES: seq<string> := ["boolean", "bool"]
  const TIME_TYPES: seq<string> := ["time", "datetime"]
  const PHONE_TYPES: seq<string> := ["phone", "phone number", "telephone", "telephone number"]
  const COLLABORATOR_TYPES: seq<string> := ["collaborators", "multiple collaborators"]

  /** The type of a field and the options that go with it. */
  datatype FieldKind =
    | Number(decimalPlaces: nat, negative: bool)
    | LongText
    | Url
    | Email
    | Rating(maxValue: nat, color: string, style: string)
    | Boolean
    | Date(dateFormat: string, includeTime: bool, timeFormat: Option<string>)
    | LastModified(dateFormat: string, includeTime: bool, timezone: string)
    | CreatedOn(dateFormat: string, includeTime: bool, timezone: string)
    | File
    | PhoneNumber
    | MultipleCollaborators
      /** One option per literal, mapped to its colour. */
    | MultipleSelect(options: map<string, string>)
    | PlainText

  datatype Field = Field(name: string, kind: FieldKind)

  /** True when the lower-cased type name selects one of the fixed field kinds; these
      names are checked before any enumeration name. */
  predicate IsKeyword(lower: string) {
    || lower in NUMBER_TYPES || lower in LONG_TEXT_TYPES || lower == "url" || lower == "email"
    || lower == "rating" || lower in BOOLEAN_TYPES || lower == "date" || lower in TIME_TYPES
    || lower == "last modified" || lower == "created on" || lower == "file"
    || lower in PHONE_TYPES || lower in COLLABORATOR_TYPES
  }

  /** `lower in (enum["name"].lower() for enum in enumerations)` */
  predicate NamesEnumerationIgnoringCase(enumerations: seq<Enumeration>, lower: string) {
    exists e :: e in enumerations && Lower(e.name) == lower
  }

  /** `next(enum for enum in enumerations if enum["name"] == typeName)`, as an index. */
  function FirstNamed(enumerations: seq<Enumeration>, typeName: string): (r: Option<nat>)
    ensures r.None? <==> forall e :: e in enumerations ==> e.name != typeName
    ensures r.Some? ==> r.value < |enumerations| && enumerations[r.value].name == typeName
    ensures r.Some? ==> forall j :: 0 <= j < r.value ==> enumerations[j].name != typeName
    decreases |enumerations|
  {
    if enumerations == [] then None
    else if enumerations[0].name == typeName then Some(0)
    else
      match FirstNamed(enumerations[1..], typeName)
      case None => None
      case Some(i) => Some(i + 1)
  }

  /** The select options of an enumeration-typed field, one per literal, each with a
      colour chosen from the palette by `pick`. */
  function SelectOptions(literals: set<string>, pick: string -> ColorIndex): (options: map<string, string>)
    ensures options.Keys == literals
    ensures forall v :: v in options ==> options[v] in COLORS
  {
    map v | v in literals :: COLORS[pick(v)]
  }

  /** `get_field(enumerations, name, type_)`: the field for an attribute called `name`
      whose resolved type name is `typeName`. */
  function GetField(enumerations: seq<Enumeration>, name: string, typeName: string,
                    pick: string -> ColorIndex): (r: Result<Field, Error>)
    ensures r.Success? ==> r.value.name == DisplayName(name)
    ensures r.Failure? <==>
              && !IsKeyword(Lower(typeName))
              && NamesEnumerationIgnoringCase(enumerations, Lower(typeName))
              && forall e :: e in enumerations ==> e.name != typeName
    ensures r.Failure? ==> r.error == NoExactEnumeration(typeName)
    ensures r.Success? ==> (r.value.kind.Number? <==> Lower(typeName) in NUMBER_TYPES)
    ensures r.Success? && r.value.kind.Number? ==>
              && (r.value.kind.decimalPlaces == 5 <==> Lower(typeName) in DECIMAL_TYPES)
              && (r.value.kind.decimalPlaces == 0 <==> Lower(typeName) !in DECIMAL_TYPES)
              && (!r.value.kind.negative <==> Lower(typeName) in UNSIGNED_TYPES)
    ensures r.Success? ==>
              (r.value.kind.MultipleSelect? <==>
                 !IsKeyword(Lower(typeName)) && NamesEnumerationIgnoringCase(enumerations, Lower(typeName)))
    ensures r.Success? && r.value.kind.MultipleSelect? ==>
              exists e :: e in enumerations && e.name == typeName && r.value.kind.options.Keys == e.literals
    ensures r.Success? && r.value.kind.MultipleSelect? ==>
              forall v :: v in r.value.kind.options ==> r.value.kind.options[v] in COLORS
    ensures r.Success? ==>
              (r.value.kind.PlainText? <==>
                 !IsKeyword(Lower(typeName)) && !NamesEnumerationIgnoringCase(enumerations, Lower(typeName)))
  {
    var lower := Lower(typeName);
    var kind :-
      if lower in NUMBER_TYPES then
        Success(Number(if lower in DECIMAL_TYPES then 5 else 0, lower !in UNSIGNED_TYPES))
      else if lower in LONG_TEXT_TYPES then Success(LongText)
      else if lower == "url" then Success(Url)
      else if lower == "email" then Success(Email)
      else if lower == "rating" then Success(Rating(5, "yellow", "star"))
      else if lower in BOOLEAN_TYPES then Success(Boolean)
      else if lower == "date" then Success(Date(DATE_FORMAT, false, None))
      else if lower in TIME_TYPES then Success(Date(DATE_FORMAT, true, Some("24")))
      // date_include_time is set to False and then to True, so it ends up True
      else if lower == "last modified" then Success(LastModified(DATE_FORMAT, true, TIMEZONE))
      else if lower == "created on" then Success(CreatedOn(DATE_FORMAT, true, TIMEZONE))
      else if lower == "file" then Success(File)
      else if lower in PHONE_TYPES then Success(PhoneNumber)
      else if lower in COLLABORATOR_TYPES then Success(MultipleCollaborators)
      else if NamesEnumerationIgnoringCase(enumerations, lower) then
        match FirstNamed(enumerations, typeName)
        case None => Failure(NoExactEnumeration(typeName))
        case Some(i) => Success(MultipleSelect(SelectOptions(enumerations[i].literals, pick)))
      else Success(PlainText);
    Success(Field(DisplayName(name), kind))
  }

  // ---------------------------------------------------------------------------
  // Properties of get_field

  /** A keyword type ignores the enumeration catalog, even an enumeration of the same name. */
  lemma KeywordBeatsEnumeration(enumerations: seq<Enumeration>, name: string, typeName: string,
                                pick: string -> ColorIndex)
    requires IsKeyword(Lower(typeName))
    ensures GetField(enumerations, name, typeName, pick) == GetField([], name, typeName, pick)
  {
  }

  /** Outside the enumeration branch the field depends on the type name only through its
      lower-case form. */
  lemma TypeMatchingIgnoresCase(enumerations: seq<Enumeration>, name: string, t1: string, t2: string,
                                pick: string -> ColorIndex)
    requires Lower(t1) == Lower(t2)
    requires IsKeyword(Lower(t1)) || !NamesEnumerationIgnoringCase(enumerations, Lower(t1))
    ensures GetField(enumerations, name, t1, pick) == GetField(enumerations, name, t2, pick)
  {
  }

  /** A type name equal to an enumeration name only when case is ignored raises. */
  lemma CaseOnlyEnumerationMatchFails(pick: string -> ColorIndex)
    ensures GetField([Enumeration("e1", "Gender", {"Male", "Female"})], "gender", "gender", pick)
            == Failure(NoExactEnumeration("gender"))
  {
    var enums := [Enumeration("e1", "Gender", {"Male", "Female"})];
    assert Lower("Gender") == "gender";
    assert NamesEnumerationIgnoringCase(enums, Lower("gender"));
    assert !IsKeyword("gender");
    assert "Gender"[0] != "gender"[0];
    assert forall e :: e in enums ==> e.name != "gender";
    var r := GetField(enums, "gender", "gender", pick);
    assert r.Failure?;
  }

  /** The date family: plain dates carry no time, times and datetimes use the 24-hour
      clock, and the two derived timestamps include the time in a fixed timezone. */
  lemma DateVariants(enumerations: seq<Enumeration>, name: string, typeName: string,
                     pick: string -> ColorIndex)
    ensures Lower(typeName) == "date" ==>
              GetField(enumerations, name, typeName, pick).value.kind == Date("EU", false, None)
    ensures Lower(typeName) in ["time", "datetime"] ==>
              GetField(enumerations, name, typeName, pick).value.kind == Date("EU", true, Some("24"))
    ensures Lower(typeName) == "last modified" ==>
              GetField(enumerations, name, typeName, pick).value.kind == LastModified("EU", true, "Europe/Zagreb")
    ensures Lower(typeName) == "created on" ==>
              GetField(enumerations, name, typeName, pick).value.kind == CreatedOn("EU", true, "Europe/Zagreb")
  {
  }

  /** A rating is always five yellow stars. */
  lemma RatingIsFixed(enumerations: seq<Enumeration>, name: string, typeName: string,
                      pick: string -> ColorIndex)
    requires Lower(typeName) == "rating"
    ensures GetField(enumerations, name, typeName, pick) == Success(Field(DisplayName(name), Rating(5, "yellow", "star")))
  {
  }

  /** An enumeration-typed field has exactly as many options as the enumeration has
      literals, each coloured from the palette. */
  lemma SelectOptionsPerLiteral(enumerations: seq<Enumeration>, name: string, typeName: string,
                                pick: string -> ColorIndex, i: nat)
    requires i < |enumerations| && enumerations[i].name == typeName
    requires forall j :: 0 <= j < i ==> enumerations[j].name != typeName
    requires !IsKeyword(Lower(typeName))
    ensures GetField(enumerations, name, typeName, pick).Success?
    ensures var kind := GetField(enumerations, name, typeName, pick).value.kind;
            && kind.MultipleSelect?
            && kind.options.Keys == enumerations[i].literals
            && |kind.options| == |enumerations[i].literals|
            && forall v :: v in kind.options ==> kind.options[v] in COLORS
  {
    assert enumerations[i] in enumerations;
    var kind := GetField(enumerations, name, typeName, pick).value.kind;
    assert kind.options == SelectOptions(enumerations[i].literals, pick);
  }

  /** An attribute without a type becomes a text field, unless
      some enumeration is itself nameless. */
  lemma UntypedIsText(enumerations: seq<Enumeration>, name: string, pick: string -> ColorIndex)
    requires forall e :: e in enumerations ==> e.name != ""
    ensures GetField(enumerations, name, "", pick) == Success(Field(DisplayName(name), PlainText))
  {
    assert !IsKeyword(Lower(""));
    forall e | e in enumerations
      ensures Lower(e.name) != ""
    {
      assert |Lower(e.name)| == |e.name| > 0;
    }
  }

  /** The keyword types without options: each group of type names, in any case, gives its
      own field kind, whatever enumerations exist. */
  lemma FixedKeywordKinds(enumerations: seq<Enumeration>, name: string, typeName: string,
                          pick: string -> ColorIndex)
    ensures var lower := Lower(typeName);
            var r := GetField(enumerations, name, typeName, pick);
            && (lower in LONG_TEXT_TYPES ==> r == Success(Field(DisplayName(name), LongText)))
            && (lower == "url" ==> r == Success(Field(DisplayName(name), Url)))
            && (lower == "email" ==> r == Success(Field(DisplayName(name), Email)))
            && (lower in BOOLEAN_TYPES ==> r == Success(Field(DisplayName(name), Boolean)))
            && (lower == "file" ==> r == Success(Field(DisplayName(name), File)))
            && (lower in PHONE_TYPES ==> r == Success(Field(DisplayName(name), PhoneNumber)))
            && (lower in COLLABORATOR_TYPES ==> r == Success(Field(DisplayName(name), MultipleCollaborators)))
  {
  }

  /** An `Integer` attribute becomes a whole, signed number field named by its display
      name, whatever enumerations exist. */
  lemma IntegerIsSignedWholeNumber(enumerations: seq<Enumeration>, name: string, pick: string -> ColorIndex)
    ensures GetField(enumerations, name, "Integer", pick) == Success(Field(DisplayName(name), Number(0, true)))
  {
    assert Lower("Integer") == "integer";
    assert "integer" in NUMBER_TYPES && "integer" !in DECIMAL_TYPES && "integer" !in UNSIGNED_TYPES;
  }

  // ---------------------------------------------------------------------------
  // get_attributes

  /** The position of the first data type with the given id, if any. */
  function FirstDataTypeIndex(dataTypes: seq<DataType>, typeRef: string): (r: Option<nat>)
    ensures r.None? <==> forall d :: d in dataTypes ==> d.id != typeRef
    ensures r.Some? ==> r.value < |dataTypes| && dataTypes[r.value].id == typeRef
    ensures r.Some? ==> forall j :: 0 <= j < r.value ==> dataTypes[j].id != typeRef
    decreases |dataTypes|
  {
    if dataTypes == [] then None
    else if dataTypes[0].id == typeRef then Some(0)
    else
      match FirstDataTypeIndex(dataTypes[1..], typeRef)
      case None => None
      case Some(i) => Some(i + 1)
  }

  /** The type name an attribute resolves to: "" for an untyped attribute, otherwise the
      name of the first data type carrying its type id. Only data types are consulted, so
      an enumeration id raises like any unknown id. */
  function ResolveTypeName(typeRef: string, dataTypes: seq<DataType>): (r: Result<string, Error>)
    ensures typeRef == "" ==> r == Success("")
    ensures typeRef != "" ==> (r.Success? <==> exists d :: d in dataTypes && d.id == typeRef)
    ensures r.Failure? ==> r.error == UnknownDataType(typeRef)
    ensures typeRef != "" && r.Success? ==>
              exists i :: 0 <= i < |dataTypes| && dataTypes[i] == DataType(typeRef, r.value)
                       && forall j :: 0 <= j < i ==> dataTypes[j].id != typeRef
  {
    if typeRef == "" then Success("")
    else
      match FirstDataTypeIndex(dataTypes, typeRef)
      case None => Failure(UnknownDataType(typeRef))
      case Some(i) => Success(dataTypes[i].name)
  }

  /** The field of one owned attribute. */
  function AttributeField(attribute: AttributeNode, dataTypes: seq<DataType>,
                          enumerations: seq<Enumeration>, pick: string -> ColorIndex): (r: Result<Field, Error>)
    ensures attribute.typeRef == "" ==> r == GetField(enumerations, attribute.name, "", pick)
    ensures r.Success? ==> r.value.name == DisplayName(attribute.name)
    ensures (forall d :: d in dataTypes ==> d.id != attribute.typeRef) && attribute.typeRef != "" ==>
              r == Failure(UnknownDataType(attribute.typeRef))
    ensures r.Failure? ==> r.error == UnknownDataType(attribute.typeRef) || r.error.NoExactEnumeration?
    ensures forall i :: attribute.typeRef != "" && 0 <= i < |dataTypes| && dataTypes[i].id == attribute.typeRef
                        && (forall j :: 0 <= j < i ==> dataTypes[j].id != attribute.typeRef) ==>
              r == GetField(enumerations, attribute.name, dataTypes[i].name, pick)
  {
    var typeName :- ResolveTypeName(attribute.typeRef, dataTypes);
    GetField(enumerations, attribute.name, typeName, pick)
  }

  /** The fields of a class's attributes in declaration order; the first attribute that
      raises stops the run. */
  function ClassFields(attributes: seq<AttributeNode>, dataTypes: seq<DataType>,
                       enumerations: seq<Enumeration>, pick: string -> ColorIndex): (r: Result<seq<Field>, Error>)
    ensures r.Success? <==>
              forall i :: 0 <= i < |attributes| ==> AttributeField(attributes[i], dataTypes, enumerations, pick).Success?
    ensures r.Success? ==> |r.value| == |attributes|
    ensures r.Success? ==> forall i :: 0 <= i < |attributes| ==>
              AttributeField(attributes[i], dataTypes, enumerations, pick) == Success(r.value[i])
    decreases |attributes|
  {
    if attributes == [] then Success([])
    else
      var field :- AttributeField(attributes[0], dataTypes, enumerations, pick);
      var rest :- ClassFields(attributes[1..], dataTypes, enumerations, pick);
      Success([field] + rest)
  }

  /** The loop over the classes in `ids`, filling each class's list of the dict `acc`. */
  function FillAttributes(classes: Dict<Element>, ids: seq<string>, acc: map<string, seq<Field>>,
                          dataTypes: seq<DataType>, enumerations: seq<Enumeration>,
                          pick: string -> ColorIndex): (r: Result<map<string, seq<Field>>, Error>)
    requires Distinct(ids)
    requires forall k :: k in ids ==> k in classes.entries && k in acc && acc[k] == []
    ensures r.Success? <==> forall k :: k in ids ==>
              ClassFields(classes.entries[k].attributes, dataTypes, enumerations, pick).Success?
    ensures r.Success? ==> r.value.Keys == acc.Keys
    ensures r.Success? ==> forall k :: k in acc && k !in ids ==> r.value[k] == acc[k]
    ensures r.Success? ==> forall k :: k in ids ==>
              r.value[k] == ClassFields(classes.entries[k].attributes, dataTypes, enumerations, pick).value
    decreases |ids|
  {
    if ids == [] then Success(acc)
    else
      var id := ids[0];
      var fields :- ClassFields(classes.entries[id].attributes, dataTypes, enumerations, pick);
      FillAttributes(classes, ids[1..], acc[id := acc[id] + fields], dataTypes, enumerations, pick)
  }

  /** `get_attributes(classes, data_types, enumerations)` */
  function GetAttributes(classes: Dict<Element>, dataTypes: seq<DataType>,
                         enumerations: seq<Enumeration>, pick: string -> ColorIndex): (r: Result<map<string, seq<Field>>, Error>)
    requires classes.Valid()
    ensures r.Success? <==> forall id, a :: id in classes.entries && a in classes.entries[id].attributes ==>
              AttributeField(a, dataTypes, enumerations, pick).Success?
    ensures r.Success? ==> r.value.Keys == classes.entries.Keys
    ensures r.Success? ==> forall id :: id in r.value ==>
              && |r.value[id]| == |classes.entries[id].attributes|
              && forall i :: 0 <= i < |r.value[id]| ==>
                   AttributeField(classes.entries[id].attributes[i], dataTypes, enumerations, pick)
                   == Success(r.value[id][i])
  {
    FillAttributes(classes, classes.keys, EmptyLists(classes.keys), dataTypes, enumerations, pick)
  }

  /** Enumeration ids are not type ids: an attribute typed by an id that only an
      enumeration carries makes the whole mapping raise. */
  lemma UnknownTypeIdRaises(classes: Dict<Element>, dataTypes: seq<DataType>,
                            enumerations: seq<Enumeration>, pick: string -> ColorIndex,
                            id: string, a: AttributeNode)
    requires classes.Valid()
    requires id in classes.entries && a in classes.entries[id].attributes
    requires a.typeRef != "" && forall d :: d in dataTypes ==> d.id != a.typeRef
    ensures GetAttributes(classes, dataTypes, enumerations, pick).Failure?
  {
    assert AttributeField(a, dataTypes, enumerations, pick).Failure?;
  }
}

=== FILE: baserow_init.dfy ===
/** The pure part of provisioning a Baserow database from a model: the table, field and
    link-field creation calls, in the order they are made. The HTTP client is not modelled;
    the id Baserow assigns to each new table is a parameter, and the class id to table id
    pairs recorded from it are computed. */
module BaserowInit {
  import opened Wrappers
  import opened Errors
  import opened Elements
  import opened Dicts
  import opened Classes
  import opened DataTypes
  import opened Attributes
  import opened Associations

  const LINK_ROW := "link_row"

  /** The single column every new table is created with. */
  const PRIMARY_KEY := "Primary key"

  /** The field dict sent for one association end. */
  datatype LinkField = LinkField(name: string, fieldType: string, linkRowTableId: int,
                                 hasRelatedField: Option<bool>)

  /** A table-creation call for a class, or a field-creation call on a class's table. */
  datatype TableRequest =
    | CreateTable(classId: string, name: string, primaryField: string)
    | CreateField(classId: string, field: Field)

  /** A link-field creation call on the table with id `tableId`. */
  datatype LinkRequest = LinkRequest(tableId: int, field: LinkField)

  /** `find_table_id_for_class(model_id, classId)`, over the recorded id pairs. */
  function FindTable(tables: map<string, int>, classId: string): (r: Result<int, Error>)
    ensures r.Success? <==> classId in tables
    ensures r.Success? ==> r.value == tables[classId]
    ensures r.Failure? ==> r.error == IdPairNotFound(classId)
  {
    if classId in tables then Success(tables[classId]) else Failure(IdPairNotFound(classId))
  }

  /** The link field for one entry of a class's association list. */
  function LinkFieldOf(end: End, tables: map<string, int>): (r: Result<LinkField, Error>)
    ensures r.Success? <==> end.classId in tables
    ensures r.Failure? ==> r.error == IdPairNotFound(end.classId)
    ensures r.Success? ==> r.value.fieldType == LINK_ROW && r.value.linkRowTableId == tables[end.classId]
    ensures r.Success? ==> r.value.name == (if end.name != "" then end.name else end.className)
    ensures r.Success? ==> r.value.hasRelatedField == end.hasRelatedField
  {
    var target :- FindTable(tables, end.classId);
    var field := LinkField(if end.name != "" then end.name else end.className, LINK_ROW, target, None);
    // the key is copied only when the end carries it
    Success(if end.hasRelatedField.Some? then field.(hasRelatedField := end.hasRelatedField) else field)
  }

  /** Total length of the lists of the classes in `ids`. */
  function Total<T>(ids: seq<string>, lists: map<string, seq<T>>): nat
    requires forall id :: id in ids ==> id in lists
  {
    if ids == [] then 0 else |lists[ids[0]]| + Total(ids[1..], lists)
  }

  /** Total length of the lists of the first `k` classes in `ids`. */
  function Offset<T>(ids: seq<string>, lists: map<string, seq<T>>, k: nat): (n: nat)
    requires k <= |ids| && forall id :: id in ids ==> id in lists
  {
    if k == 0 then 0 else |lists[ids[0]]| + Offset(ids[1..], lists, k - 1)
  }

  // ---------------------------------------------------------------------------
  // create_link_rows

  /** True when every entry targets a class with a table. */
  predicate TargetsHaveTables(ends: seq<End>, tables: map<string, int>) {
    forall e :: e in ends ==> e.classId in tables
  }

  /** The link fields of one class whose every entry targets a class with a table, all
      created on the table `tableId`. */
  function LinkFields(tableId: int, ends: seq<End>, tables: map<string, int>): (r: seq<LinkRequest>)
    requires TargetsHaveTables(ends, tables)
    ensures |r| == |ends|
    ensures forall j :: 0 <= j < |ends| ==> r[j] == LinkRequest(tableId, LinkFieldOf(ends[j], tables).value)
    decreases |ends|
  {
    if ends == [] then []
    else
      var rest := LinkFields(tableId, ends[1..], tables);
      assert forall j :: 0 < j < |ends| ==> ends[1..][j - 1] == ends[j];
      [LinkRequest(tableId, LinkFieldOf(ends[0], tables).value)] + rest
  }

  /** The inner loop of `create_link_rows`: one link field per entry, stopping at the
      first entry whose class has no table. */
  function LinkBlock(tableId: int, ends: seq<End>, tables: map<string, int>): (r: Result<seq<LinkRequest>, Error>)
    ensures r.Success? <==> TargetsHaveTables(ends, tables)
    ensures r.Success? ==> r.value == LinkFields(tableId, ends, tables)
    ensures r.Failure? ==> exists e :: e in ends && r.error == IdPairNotFound(e.classId) && e.classId !in tables
    decreases |ends|
  {
    if ends == [] then Success([])
    else
      var field :- LinkFieldOf(ends[0], tables);
      var rest :- LinkBlock(tableId, ends[1..], tables);
      Success([LinkRequest(tableId, field)] + rest)
  }

  /** True when every class in `ids` has a table and an association list whose every
      entry targets a class with a table. */
  predicate LinksResolve(ids: seq<string>, associations: map<string, seq<End>>, tables: map<string, int>) {
    forall id :: id in ids ==> id in tables && id in associations && TargetsHaveTables(associations[id], tables)
  }

  /** The link-field calls for the classes in `ids`, one block per class in order. */
  function LinkCalls(ids: seq<string>, associations: map<string, seq<End>>, tables: map<string, int>)
    : (r: seq<LinkRequest>)
    requires LinksResolve(ids, associations, tables)
    ensures |r| == Total(ids, associations)
    decreases |ids|
  {
    if ids == [] then []
    else LinkFields(tables[ids[0]], associations[ids[0]], tables) + LinkCalls(ids[1..], associations, tables)
  }

  /** `create_link_rows`: for each class in order, look up its table, then create one link
      field per entry of its association list. */
  function CreateLinkRows(ids: seq<string>, associations: map<string, seq<End>>, tables: map<string, int>)
    : (r: Result<seq<LinkRequest>, Error>)
    ensures r.Success? <==> LinksResolve(ids, associations, tables)
    ensures r.Success? ==> r.value == LinkCalls(ids, associations, tables)
    decreases |ids|
  {
    if ids == [] then Success([])
    else
      var tableId :- FindTable(tables, ids[0]);
      var ends :- if ids[0] in associations then Success(associations[ids[0]]) else Failure(MissingKey(ids[0]));
      var block :- LinkBlock(tableId, ends, tables);
      var rest :- CreateLinkRows(ids[1..], associations, tables);
      Success(block + rest)
  }

  /** The link fields of the k-th class (on its table and following its association list,
      as `LinkFields` states) are consecutive and come after those of the earlier classes. */
  lemma {:induction false} LinkRowsLayout(ids: seq<string>, associations: map<string, seq<End>>,
                                          tables: map<string, int>, k: nat, j: nat)
    requires LinksResolve(ids, associations, tables)
    requires k < |ids| && j < |associations[ids[k]]|
    ensures var r := LinkCalls(ids, associations, tables);
            && Offset(ids, associations, k) + j < |r|
            && r[Offset(ids, associations, k) + j]
               == LinkFields(tables[ids[k]], associations[ids[k]], tables)[j]
    decreases k
  {
    if k == 0 {
      LinkCallsHead(ids, associations, tables, j);
    } else {
      assert ids[1..][k - 1] == ids[k];
      LinkRowsLayout(ids[1..], associations, tables, k - 1, j);
      LinkCallsShift(ids, associations, tables, Offset(ids[1..], associations, k - 1) + j);
    }
  }

  /** The first class's link fields come first. */
  lemma LinkCallsHead(ids: seq<string>, associations: map<string, seq<End>>, tables: map<string, int>, j: nat)
    requires ids != [] && LinksResolve(ids, associations, tables)
    requires j < |associations[ids[0]]|
    ensures j < |LinkCalls(ids, associations, tables)|
    ensures LinkCalls(ids, associations, tables)[j] == LinkFields(tables[ids[0]], associations[ids[0]], tables)[j]
  {
    var block := LinkFields(tables[ids[0]], associations[ids[0]], tables);
    assert LinkCalls(ids, associations, tables) == block + LinkCalls(ids[1..], associations, tables);
  }

  /** The later classes' link fields follow the first class's. */
  lemma LinkCallsShift(ids: seq<string>, associations: map<string, seq<End>>, tables: map<string, int>, i: nat)
    requires ids != [] && LinksResolve(ids, associations, tables)
    requires i < |LinkCalls(ids[1..], associations, tables)|
    ensures |associations[ids[0]]| + i < |LinkCalls(ids, associations, tables)|
    ensures LinkCalls(ids, associations, tables)[|associations[ids[0]]| + i] == LinkCalls(ids[1..], associations, tables)[i]
  {
    var block := LinkFields(tables[ids[0]], associations[ids[0]], tables);
    assert LinkCalls(ids, associations, tables) == block + LinkCalls(ids[1..], associations, tables);
  }

  /** A self-association's single entry becomes a link field without the
      `has_related_field` key. */
  lemma SelfAssociationLinkHasNoFlag(ends: seq<End>, classId: string, tables: map<string, int>)
    requires |ends| >= 1 && AllEndsOn(ends, classId)
    requires ends[0].hasRelatedField.None? && classId in tables
    ensures var r := SolveNavigable(ends, classId, map[classId := []]);
            && r.Success? && |r.value[classId]| == 1
            && LinkFieldOf(r.value[classId][0], tables).Success?
            && LinkFieldOf(r.value[classId][0], tables).value.hasRelatedField.None?
  {
    SelfAssociation(ends, classId, map[classId := []]);
  }

  // ---------------------------------------------------------------------------
  // create_tables

  /** The calls for one class: its table, then one field per attribute field in order. */
  function TableBlock(classId: string, c: Element, fields: seq<Field>): (r: seq<TableRequest>)
    ensures |r| == 1 + |fields|
    ensures r[0] == CreateTable(classId, ClassName(c), PRIMARY_KEY)
    ensures forall j :: 0 <= j < |fields| ==> r[1 + j] == CreateField(classId, fields[j])
  {
    [CreateTable(classId, ClassName(c), PRIMARY_KEY)] + FieldCalls(classId, fields)
  }

  /** One field-creation call per field, in order. */
  function FieldCalls(classId: string, fields: seq<Field>): (r: seq<TableRequest>)
    ensures |r| == |fields|
    ensures forall j :: 0 <= j < |fields| ==> r[j] == CreateField(classId, fields[j])
    decreases |fields|
  {
    if fields == [] then []
    else
      assert forall j :: 0 < j < |fields| ==> fields[1..][j - 1] == fields[j];
      [CreateField(classId, fields[0])] + FieldCalls(classId, fields[1..])
  }

  /** The table and field calls for the classes in `ids`, one block per class in order. */
  function TableCalls(classes: Dict<Element>, ids: seq<string>, attributes: map<string, seq<Field>>)
    : (r: seq<TableRequest>)
    requires forall id :: id in ids ==> id in classes.entries && id in attributes
    ensures |r| == |ids| + Total(ids, attributes)
    decreases |ids|
  {
    if ids == [] then []
    else TableBlock(ids[0], classes.entries[ids[0]], attributes[ids[0]]) + TableCalls(classes, ids[1..], attributes)
  }

  /** `create_tables`: for each class in order, its table and then its fields. */
  function CreateTables(classes: Dict<Element>, ids: seq<string>, attributes: map<string, seq<Field>>)
    : (r: Result<seq<TableRequest>, Error>)
    requires forall id :: id in ids ==> id in classes.entries
    ensures r.Success? <==> forall id :: id in ids ==> id in attributes
    ensures r.Success? ==> r.value == TableCalls(classes, ids, attributes)
    decreases |ids|
  {
    if ids == [] then Success([])
    else
      var fields :- if ids[0] in attributes then Success(attributes[ids[0]]) else Failure(MissingKey(ids[0]));
      var rest :- CreateTables(classes, ids[1..], attributes);
      Success(TableBlock(ids[0], classes.entries[ids[0]], fields) + rest)
  }

  /** The k-th class's calls (its table, then its fields in attribute order, as
      `TableBlock` states) are consecutive and come after every call for the earlier classes. */
  lemma {:induction false} TablesLayout(classes: Dict<Element>, ids: seq<string>,
                                        attributes: map<string, seq<Field>>, k: nat, j: nat)
    requires forall id :: id in ids ==> id in classes.entries && id in attributes
    requires k < |ids| && j <= |attributes[ids[k]]|
    ensures var r := TableCalls(classes, ids, attributes);
            var start := k + Offset(ids, attributes, k);
            && start + j < |r|
            && r[start + j] == TableBlock(ids[k], classes.entries[ids[k]], attributes[ids[k]])[j]
    decreases k
  {
    if k == 0 {
      TableCallsHead(classes, ids, attributes, j);
    } else {
      assert ids[1..][k - 1] == ids[k];
      TablesLayout(classes, ids[1..], attributes, k - 1, j);
      TableCallsShift(classes, ids, attributes, k - 1 + Offset(ids[1..], attributes, k - 1) + j);
    }
  }

  /** The first class's calls come first. */
  lemma TableCallsHead(classes: Dict<Element>, ids: seq<string>, attributes: map<string, seq<Field>>, j: nat)
    requires forall id :: id in ids ==> id in classes.entries && id in attributes
    requires ids != [] && j <= |attributes[ids[0]]|
    ensures j < |TableCalls(classes, ids, attributes)|
    ensures TableCalls(classes, ids, attributes)[j] == TableBlock(ids[0], classes.entries[ids[0]], attributes[ids[0]])[j]
  {
    var block := TableBlock(ids[0], classes.entries[ids[0]], attributes[ids[0]]);
    assert TableCalls(classes, ids, attributes) == block + TableCalls(classes, ids[1..], attributes);
  }

  /** The later classes' calls follow the first class's table and fields. */
  lemma TableCallsShift(classes: Dict<Element>, ids: seq<string>, attributes: map<string, seq<Field>>, i: nat)
    requires forall id :: id in ids ==> id in classes.entries && id in attributes
    requires ids != [] && i < |TableCalls(classes, ids[1..], attributes)|
    ensures 1 + |attributes[ids[0]]| + i < |TableCalls(classes, ids, attributes)|
    ensures TableCalls(classes, ids, attributes)[1 + |attributes[ids[0]]| + i]
            == TableCalls(classes, ids[1..], attributes)[i]
  {
    var block := TableBlock(ids[0], classes.entries[ids[0]], attributes[ids[0]]);
    assert TableCalls(classes, ids, attributes) == block + TableCalls(classes, ids[1..], attributes);
  }

  // ---------------------------------------------------------------------------
  // create_baserow_database

  /** The id pairs `create_tables` records: one per class, pairing the class id with the
      id `tableId` gives for the table Baserow creates for that class. */
  function RecordedPairs(ids: seq<string>, tableId: string -> int): (pairs: map<string, int>)
    ensures forall id :: id in pairs <==> id in ids
    ensures forall id :: id in pairs ==> pairs[id] == tableId(id)
  {
    map id | id in ids :: tableId(id)
  }

  /** The extraction steps followed by the table and link-field calls, in the order they
      are made; `tableId` gives the id of the table created for each class. */
  function CreateBaserowDatabase(elements: seq<Element>, pick: string -> ColorIndex, tableId: string -> int)
    : (r: Result<(seq<TableRequest>, seq<LinkRequest>), Error>)
    ensures var classes := GetClasses(elements);
            var attributes := GetAttributes(classes, GetDataTypes(elements), GetEnumerations(elements), pick);
            r.Success? ==> attributes.Success? && r.value.0 == TableCalls(classes, classes.keys, attributes.value)
  {
    Provision(GetClasses(elements), GetDataTypes(elements), GetEnumerations(elements), pick, tableId)
  }

  /** Everything after the three catalogs: associations, attributes, tables (recording one
      id pair per class), link fields over the recorded pairs. */
  function Provision(classes: Dict<Element>, dataTypes: seq<DataType>, enumerations: seq<Enumeration>,
                     pick: string -> ColorIndex, tableId: string -> int)
    : (r: Result<(seq<TableRequest>, seq<LinkRequest>), Error>)
    requires classes.Valid()
    ensures var attributes := GetAttributes(classes, dataTypes, enumerations, pick);
            r.Success? ==> attributes.Success? && r.value.0 == TableCalls(classes, classes.keys, attributes.value)
    ensures var associations := GetAssociations(classes);
            var pairs := RecordedPairs(classes.keys, tableId);
            r.Success? ==> && associations.Success?
                           && LinksResolve(classes.keys, associations.value, pairs)
                           && r.value.1 == LinkCalls(classes.keys, associations.value, pairs)
  {
    var associations :- GetAssociations(classes);
    var attributes :- GetAttributes(classes, dataTypes, enumerations, pick);
    var tableRequests :- CreateTables(classes, classes.keys, attributes);
    var linkRequests :- CreateLinkRows(classes.keys, associations, RecordedPairs(classes.keys, tableId));
    Success((tableRequests, linkRequests))
  }

  /** Table creation cannot fail once every class has its fields, and link creation fails
      only for a class without a recorded table when every entry targets a class. */
  lemma RequestsNeedOnlyTables(classes: Dict<Element>, associations: map<string, seq<End>>,
                               attributes: map<string, seq<Field>>, tables: map<string, int>)
    requires classes.Valid()
    requires associations.Keys == classes.entries.Keys && attributes.Keys == classes.entries.Keys
    requires forall id, e :: id in associations && e in associations[id] ==> e.classId in classes.entries
    ensures CreateTables(classes, classes.keys, attributes).Success?
    ensures CreateLinkRows(classes.keys, associations, tables).Success?
            <==> forall id :: id in classes.entries ==> id in tables
  {
    var links := CreateLinkRows(classes.keys, associations, tables);
    if forall id :: id in classes.entries ==> id in tables {
      assert links.Success?;
    } else {
      var id :| id in classes.entries && id !in tables;
      assert id in classes.keys;
    }
  }

  /** The link-field calls of a successful run: those of the extracted associations over
      the pairs recorded while creating the tables. */
  lemma DatabaseLinkCalls(elements: seq<Element>, pick: string -> ColorIndex, tableId: string -> int)
    ensures var classes := GetClasses(elements);
            var r := CreateBaserowDatabase(elements, pick, tableId);
            r.Success? ==> && GetAssociations(classes).Success?
                           && r.value.1 == LinkCalls(classes.keys, GetAssociations(classes).value,
                                                     RecordedPairs(classes.keys, tableId))
  {
  }

  /** Provisioning fails only where extraction does: table creation cannot fail, and every
      link target is a class, for which table creation has recorded a pair. */
  lemma ProvisioningSucceedsWhenExtractionDoes(classes: Dict<Element>, dataTypes: seq<DataType>,
                                               enumerations: seq<Enumeration>, pick: string -> ColorIndex,
                                               tableId: string -> int)
    requires classes.Valid()
    ensures Provision(classes, dataTypes, enumerations, pick, tableId).Success? <==>
              GetAssociations(classes).Success? && GetAttributes(classes, dataTypes, enumerations, pick).Success?
  {
    var associations := GetAssociations(classes);
    var attributes := GetAttributes(classes, dataTypes, enumerations, pick);
    if associations.Success? && attributes.Success? {
      var links := associations.value;
      var pairs := RecordedPairs(classes.keys, tableId);
      assert links.Keys == classes.entries.Keys;
      assert attributes.value.Keys == classes.entries.Keys;
      LinkTargetsAreClasses(classes);
      forall id, e | id in links && e in links[id] ensures e.classId in classes.entries {
        assert Targets(e, classes);
      }
      RequestsNeedOnlyTables(classes, links, attributes.value, pairs);
      assert forall id :: id in classes.entries ==> id in pairs;
    }
  }

  /** The whole provisioning run from the packaged elements succeeds exactly when
      association and attribute extraction do. */
  lemma DatabaseSucceedsWhenExtractionDoes(elements: seq<Element>, pick: string -> ColorIndex,
                                           tableId: string -> int)
    ensures var classes := GetClasses(elements);
            CreateBaserowDatabase(elements, pick, tableId).Success? <==>
              && GetAssociations(classes).Success?
              && GetAttributes(classes, GetDataTypes(elements), GetEnumerations(elements), pick).Success?
  {
    ProvisioningSucceedsWhenExtractionDoes(GetClasses(elements), GetDataTypes(elements),
                                           GetEnumerations(elements), pick, tableId);
  }
}

=== FILE: classes.dfy ===
/** `get_classes`: the dict from class id to class element, built by a dict comprehension
    over the packaged elements. */
module Classes {
  import opened Elements
  import opened Dicts

  /** The ids carried by class elements. */
  ghost function ClassIds(elements: seq<Element>): set<string> {
    set e | e in elements && e.IsClass() :: e.id
  }

  /** `{e.getAttribute("xmi:id"): e for e in elements if e.getAttribute("xmi:type") == "uml:Class"}`,
      evaluated left to right: each class element assigns its id in turn. */
  function GetClasses(elements: seq<Element>): (r: Dict<Element>)
    ensures r.Valid()
    ensures forall k :: k in r.entries <==> k in ClassIds(elements)
    ensures forall k :: k in r.entries ==>
              r.entries[k] in elements && r.entries[k].IsClass() && r.entries[k].id == k
    ensures |r.keys| <= |elements|
    decreases |elements|
  {
    if elements == [] then Empty()
    else
      var init := elements[..|elements| - 1];
      var last := elements[|elements| - 1];
      var classes := GetClasses(init);
      assert elements == init + [last];
      if last.IsClass() then classes.Put(last.id, last) else classes
  }

  /** With duplicate ids the value is the last class element carrying that id. */
  lemma {:induction false} LastDuplicateWins(elements: seq<Element>, i: nat)
    requires i < |elements| && elements[i].IsClass()
    requires forall j :: i < j < |elements| ==>
               !(elements[j].IsClass() && elements[j].id == elements[i].id)
    ensures elements[i].id in GetClasses(elements).entries
    ensures GetClasses(elements).entries[elements[i].id] == elements[i]
    decreases |elements|
  {
    if i < |elements| - 1 {
      var init := elements[..|elements| - 1];
      LastDuplicateWins(init, i);
    }
  }

  /** Keys are only ever appended: the keys collected from any prefix of the elements
      are a prefix of the final key order. Together with the key set of each prefix this
      pins the order down as the order of first occurrence. */
  lemma {:induction false} KeyOrderIsFirstOccurrence(elements: seq<Element>, n: nat)
    requires n <= |elements|
    ensures GetClasses(elements[..n]).keys <= GetClasses(elements).keys
    decreases |elements|
  {
    if n < |elements| {
      var init := elements[..|elements| - 1];
      assert elements[..n] == init[..n];
      KeyOrderIsFirstOccurrence(init, n);
    } else {
      assert elements[..n] == elements;
    }
  }

  /** A class element repeating the id of an earlier class element keeps that id's
      position and replaces its value. */
  lemma RepeatedIdKeepsPosition(elements: seq<Element>, i: nat, e: Element)
    requires i < |elements| && elements[i].IsClass() && e.IsClass() && e.id == elements[i].id
    ensures GetClasses(elements + [e]).keys == GetClasses(elements).keys
    ensures GetClasses(elements + [e]).entries == GetClasses(elements).entries[e.id := e]
  {
    assert elements[i] in elements;
    assert (elements + [e])[..|elements|] == elements;
  }
}

=== FILE: data_types.dfy ===
/** `get_data_types` and `get_enumerations`: the two ordered type catalogs. */
module DataTypes {
  import opened Elements
  import Classes

  datatype DataType = DataType(id: string, name: string)

  /** An enumeration with its set of literal names (duplicates collapsed, no order). */
  datatype Enumeration = Enumeration(id: string, name: string, literals: set<string>)

  function DataTypeOf(e: Element): (d: DataType)
    ensures d.id == e.id && d.name == e.name
  {
    DataType(e.id, e.name)
  }

  function EnumerationOf(e: Element): (r: Enumeration)
    ensures r.id == e.id && r.name == e.name
    ensures forall l :: l in r.literals <==> l in e.literals
    ensures |r.literals| <= |e.literals|
  {
    var literals := set l | l in e.literals;
    LiteralSetSize(e.literals);
    Enumeration(e.id, e.name, literals)
  }

  /** Collecting a list of names into a set never adds names. */
  lemma {:induction false} LiteralSetSize(names: seq<string>)
    ensures |set l | l in names| <= |names|
  {
    if names != [] {
      LiteralSetSize(names[1..]);
      assert (set l | l in names) == (set l | l in names[1..]) + {names[0]};
    }
  }

  /** One (id, name) per data-type element, in encounter order. */
  function GetDataTypes(elements: seq<Element>): (r: seq<DataType>)
    ensures |r| <= |elements|
    ensures forall d :: d in r <==> exists e :: e in elements && e.IsDataType() && d == DataTypeOf(e)
    decreases |elements|
  {
    if elements == [] then []
    else
      var init := elements[..|elements| - 1];
      var last := elements[|elements| - 1];
      assert elements == init + [last];
      GetDataTypes(init) + (if last.IsDataType() then [DataTypeOf(last)] else [])
  }

  /** One enumeration per enumeration element, in encounter order. */
  function GetEnumerations(elements: seq<Element>): (r: seq<Enumeration>)
    ensures |r| <= |elements|
    ensures forall x :: x in r <==> exists e :: e in elements && e.IsEnumeration() && x == EnumerationOf(e)
    decreases |elements|
  {
    if elements == [] then []
    else
      var init := elements[..|elements| - 1];
      var last := elements[|elements| - 1];
      assert elements == init + [last];
      GetEnumerations(init) + (if last.IsEnumeration() then [EnumerationOf(last)] else [])
  }

  /** The data-type catalog of a concatenation is the concatenation of the catalogs:
      entries follow encounter order. */
  lemma {:induction false} DataTypesInEncounterOrder(a: seq<Element>, b: seq<Element>)
    ensures GetDataTypes(a + b) == GetDataTypes(a) + GetDataTypes(b)
    decreases |b|
  {
    if b == [] {
      assert a + b == a;
    } else {
      var init := b[..|b| - 1];
      assert (a + b)[..|a + b| - 1] == a + init;
      DataTypesInEncounterOrder(a, init);
    }
  }

  /** The enumeration catalog of a concatenation is the concatenation of the catalogs. */
  lemma {:induction false} EnumerationsInEncounterOrder(a: seq<Element>, b: seq<Element>)
    ensures GetEnumerations(a + b) == GetEnumerations(a) + GetEnumerations(b)
    decreases |b|
  {
    if b == [] {
      assert a + b == a;
    } else {
      var init := b[..|b| - 1];
      assert (a + b)[..|a + b| - 1] == a + init;
      EnumerationsInEncounterOrder(a, init);
    }
  }

  /** The three catalogs draw on disjoint elements: an element is a class, a data type
      or an enumeration, never two of them, so together they hold at most one entry
      per element. */
  lemma {:induction false} CatalogsAreDisjoint(elements: seq<Element>)
    ensures |Classes.GetClasses(elements).keys| + |GetDataTypes(elements)| + |GetEnumerations(elements)|
            <= |elements|
    decreases |elements|
  {
    if elements != [] {
      var init := elements[..|elements| - 1];
      CatalogsAreDisjoint(init);
    }
  }
}

=== FILE: dicts.dfy ===
/** Python dicts keyed by XMI ids: a map together with the order in which keys were
    first inserted, which is the order the dict iterates in. */
module Dicts {

  datatype Dict<V> = Dict(keys: seq<string>, entries: map<string, V>) {

    /** Keys are listed once each, and exactly the keys of the map are listed. */
    ghost predicate Valid() {
      && (forall i, j :: 0 <= i < j < |keys| ==> keys[i] != keys[j])
      && (forall k :: k in entries <==> k in keys)
    }

    /** `d[k] = v`: the value is replaced, a new key goes last and an existing key keeps
        its place. */
    function Put(k: string, v: V): (d: Dict<V>)
      requires Valid()
      ensures d.Valid()
      ensures keys <= d.keys
      ensures d.entries == entries[k := v]
      ensures k in entries ==> d.keys == keys
      ensures k !in entries ==> d.keys == keys + [k]
    {
      if k in entries then Dict(keys, entries[k := v]) else Dict(keys + [k], entries[k := v])
    }
  }

  function Empty<V>(): (d: Dict<V>)
    ensures d.Valid()
  {
    Dict([], map[])
  }

  /** True when no key is listed twice. */
  ghost predicate Distinct(ids: seq<string>) {
    forall i, j :: 0 <= i < j < |ids| ==> ids[i] != ids[j]
  }

  /** `{id: [] for id in ids}` */
  function EmptyLists<T>(ids: seq<string>): (m: map<string, seq<T>>)
    ensures forall k :: k in m <==> k in ids
    ensures forall k :: k in m ==> m[k] == []
  {
    map k | k in ids :: []
  }
}

=== FILE: elements.dfy ===
/** The packaged elements of a UML model as read from its XMI file. Every XML attribute
    is a string, and an attribute the element does not carry reads as "". */
module Elements {

  const CLASS_TAG := "uml:Class"
  const DATA_TYPE_TAG := "uml:DataType"
  const ENUMERATION_TAG := "uml:Enumeration"

  /** An `ownedEnd` of an association: role name, referenced class id, aggregation, and
      the raw `isNavigable` attribute. */
  datatype EndNode = EndNode(name: string, typeRef: string, aggregation: string, isNavigable: string)

  /** An `ownedMember` of a class, holding its `ownedEnd` children. */
  datatype MemberNode = MemberNode(ends: seq<EndNode>)

  /** An `ownedAttribute` of a class: its name and the id of its type, "" when untyped. */
  datatype AttributeNode = AttributeNode(name: string, typeRef: string)

  /** The closed set of element kinds the extractor distinguishes by `xmi:type`. */
  datatype Kind = ClassKind | DataTypeKind | EnumerationKind | OtherKind

  /** A `packagedElement` with the children the extractor reads; `literals` are the
      names of its `ownedLiteral` children. */
  datatype Element = Element(
    xmiType: string,
    id: string,
    name: string,
    attributes: seq<AttributeNode>,
    members: seq<MemberNode>,
    literals: seq<string>)
  {
    function KindOf(): (k: Kind)
      ensures k == ClassKind <==> xmiType == CLASS_TAG
      ensures k == DataTypeKind <==> xmiType == DATA_TYPE_TAG
      ensures k == EnumerationKind <==> xmiType == ENUMERATION_TAG
    {
      if xmiType == CLASS_TAG then ClassKind
      else if xmiType == DATA_TYPE_TAG then DataTypeKind
      else if xmiType == ENUMERATION_TAG then EnumerationKind
      else OtherKind
    }

    predicate IsClass() {
      KindOf() == ClassKind
    }

    predicate IsDataType() {
      KindOf() == DataTypeKind
    }

    predicate IsEnumeration() {
      KindOf() == EnumerationKind
    }
  }
}

=== FILE: errors.dfy ===
/** The exceptions raised by the extraction and provisioning steps: one variant per exception and cause. */
module Errors {

  datatype Error =
    /** KeyError: an association end whose `type` is not the id of a class. */
    | UnknownClass(classId: string)
    /** IndexError: an association with too few ends for the case it falls into. */
    | MissingEnd
    /** StopIteration: a non-empty attribute type id that no data type carries. */
    | UnknownDataType(typeRef: string)
    /** StopIteration: a type name that equals an enumeration name only when case is ignored. */
    | NoExactEnumeration(typeName: string)
    /** KeyError: a class id missing from a per-class dict. */
    | MissingKey(classId: string)
    /** NotFoundException: no table id recorded for a class id. */
    | IdPairNotFound(classId: string)
}

=== FILE: text.dfy ===
/** The string operations the extractor applies to names: ASCII `str.lower`, `str.title`,
    single-character replacement and the `%20` decoding of class names. */
module Text {

  predicate IsUpper(c: char) {
    'A' <= c <= 'Z'
  }

  predicate IsLower(c: char) {
    'a' <= c <= 'z'
  }

  /** Python's "cased" characters, restricted to ASCII. */
  predicate IsLetter(c: char) {
    IsUpper(c) || IsLower(c)
  }

  function ToUpper(c: char): (u: char)
    ensures IsLetter(c) ==> IsUpper(u)
    ensures !IsLetter(c) ==> u == c
    ensures IsUpper(c) ==> u == c
  {
    if IsLower(c) then (c as int - 32) as char else c
  }

  function ToLower(c: char): (l: char)
    ensures IsLetter(c) ==> IsLower(l)
    ensures !IsLetter(c) ==> l == c
    ensures IsLower(c) ==> l == c
  {
    if IsUpper(c) then (c as int + 32) as char else c
  }

  /** `s.lower()` */
  function Lower(s: string): (r: string)
    ensures |r| == |s|
    ensures forall i :: 0 <= i < |s| ==> r[i] == ToLower(s[i])
  {
    seq(|s|, i requires 0 <= i < |s| => ToLower(s[i]))
  }

  /** The character `s.title()` puts at position `i`: a letter that follows a letter is
      lower-cased, any other letter is upper-cased, everything else is kept. */
  function TitleChar(s: string, i: nat): char
    requires i < |s|
  {
    if !IsLetter(s[i]) then s[i]
    else if i > 0 && IsLetter(s[i - 1]) then ToLower(s[i])
    else ToUpper(s[i])
  }

  /** The title-casing scan, one character at a time, carrying whether the previous
      character was a letter. */
  function TitleAfter(s: string, afterLetter: bool): (r: string)
    ensures |r| == |s|
    ensures |s| > 0 ==> r[0] == (if !IsLetter(s[0]) then s[0]
                                else if afterLetter then ToLower(s[0])
                                else ToUpper(s[0]))
    ensures forall i :: 0 < i < |s| ==> r[i] == TitleChar(s, i)
    decreases |s|
  {
    if s == [] then []
    else
      var c := if !IsLetter(s[0]) then s[0] else if afterLetter then ToLower(s[0]) else ToUpper(s[0]);
      [c] + TitleAfter(s[1..], IsLetter(s[0]))
  }

  /** `s.title()` on ASCII text. */
  function Title(s: string): (r: string)
    ensures |r| == |s|
    ensures forall i :: 0 <= i < |s| ==> r[i] == TitleChar(s, i)
  {
    TitleAfter(s, false)
  }

  /** `s.replace(old, new)` for single characters. */
  function ReplaceChar(s: string, from: char, to: char): (r: string)
    ensures |r| == |s|
    ensures forall i :: 0 <= i < |s| ==> r[i] == (if s[i] == from then to else s[i])
  {
    seq(|s|, i requires 0 <= i < |s| => if s[i] == from then to else s[i])
  }

  /** The display form of an attribute or role name: `name.title().replace("_", " ")`. */
  function DisplayName(s: string): (r: string)
    ensures |r| == |s|
    ensures forall i :: 0 <= i < |s| ==> r[i] == (if s[i] == '_' then ' ' else TitleChar(s, i))
    ensures forall i :: 0 <= i < |s| ==> r[i] != '_'
  {
    ReplaceChar(Title(s), '_', ' ')
  }

  /** True when `s` holds the three characters `%20` starting at position `i`. */
  predicate EncodedSpaceAt(s: string, i: int) {
    0 <= i && i + 3 <= |s| && s[i] == '%' && s[i + 1] == '2' && s[i + 2] == '0'
  }

  /** True when `i` is the position of the first `%20` in `s`. */
  predicate FirstEncodedSpace(s: string, i: int) {
    EncodedSpaceAt(s, i) && forall j :: 0 <= j < i ==> !EncodedSpaceAt(s, j)
  }

  /** `s.replace("%20", " ")`: occurrences are replaced left to right without overlap, so
      the text before the first `%20` is kept, that `%20` becomes a space, and the rest
      is decoded in turn. */
  function DecodeSpaces(s: string): (r: string)
    ensures |r| <= |s|
    ensures |s| > 0 ==> |r| > 0 && (r[0] == ' ' || r[0] == s[0])
    ensures forall i :: !EncodedSpaceAt(r, i)
    ensures (forall i :: !EncodedSpaceAt(s, i)) ==> r == s
    ensures forall i :: FirstEncodedSpace(s, i) ==> r == s[..i] + " " + DecodeSpaces(s[i + 3..])
    decreases |s|, 1
  {
    if EncodedSpaceAt(s, 0) then
      var rest := DecodeSpaces(s[3..]);
      NoEncodedSpaceAfter(' ', rest);
      " " + rest
    else if s == [] then []
    else
      var rest := DecodeSpaces(s[1..]);
      NoEncodedSpaceAfter(s[0], rest);
      FirstEncodedSpaceShift(s, rest);
      PlainTail(s);
      [s[0]] + rest
  }

  /** The tail of a string without `%20` has none either. */
  lemma PlainTail(s: string)
    requires s != []
    ensures (forall i :: !EncodedSpaceAt(s, i)) ==> forall j :: !EncodedSpaceAt(s[1..], j)
  {
    if forall i :: !EncodedSpaceAt(s, i) {
      forall j | EncodedSpaceAt(s[1..], j)
        ensures false
      {
        assert EncodedSpaceAt(s, j + 1);
      }
    }
  }

  /** The step case of DecodeSpaces: when `s` does not start with `%20`, its first
      occurrence is one place after the first occurrence in `s[1..]`. */
  lemma FirstEncodedSpaceShift(s: string, rest: string)
    requires s != [] && !EncodedSpaceAt(s, 0)
    requires forall i :: FirstEncodedSpace(s[1..], i) ==> rest == s[1..][..i] + " " + DecodeSpaces(s[1..][i + 3..])
    ensures forall i :: FirstEncodedSpace(s, i) ==> [s[0]] + rest == s[..i] + " " + DecodeSpaces(s[i + 3..])
    decreases |s|, 0
  {
    forall i | FirstEncodedSpace(s, i)
      ensures [s[0]] + rest == s[..i] + " " + DecodeSpaces(s[i + 3..])
    {
      assert i > 0;
      assert FirstEncodedSpace(s[1..], i - 1) by {
        forall j | 0 <= j < i - 1
          ensures !EncodedSpaceAt(s[1..], j)
        {
          assert !EncodedSpaceAt(s, j + 1);
          assert EncodedSpaceAt(s[1..], j) ==> EncodedSpaceAt(s, j + 1);
        }
        assert EncodedSpaceAt(s, (i - 1) + 1);
      }
      assert s[1..][i - 1 + 3..] == s[i + 3..];
      assert [s[0]] + s[1..][..i - 1] == s[..i];
    }
  }

  /** Decoding `a + "%20" + b`, where `a` holds no `%20`, keeps `a`, turns that `%20` into a
      space and decodes `b`. */
  lemma DecodeSpacesSplice(a: string, b: string)
    requires forall i :: !EncodedSpaceAt(a, i)
    ensures DecodeSpaces(a + "%20" + b) == a + " " + DecodeSpaces(b)
  {
    var s := a + "%20" + b;
    assert EncodedSpaceAt(s, |a|);
    forall j | 0 <= j < |a|
      ensures !EncodedSpaceAt(s, j)
    {
      if j + 3 <= |a| {
        assert !EncodedSpaceAt(a, j);
        assert s[j..j + 3] == a[j..j + 3];
      }
    }
    assert FirstEncodedSpace(s, |a|);
    assert s[..|a|] == a && s[|a| + 3..] == b;
  }

  /** Prepending one character to a string without `%20` creates an occurrence only
      when that character is `%` and the string starts with `20`. */
  lemma NoEncodedSpaceAfter(c: char, rest: string)
    requires forall i :: !EncodedSpaceAt(rest, i)
    requires c == '%' && |rest| >= 2 ==> !(rest[0] == '2' && rest[1] == '0')
    ensures forall i :: !EncodedSpaceAt([c] + rest, i)
  {
    forall i | i > 0
      ensures EncodedSpaceAt([c] + rest, i) ==> EncodedSpaceAt(rest, i - 1)
    {
    }
  }

  // ---------------------------------------------------------------------------
  // Properties of the name normalisations

  /** Title-casing an already title-cased string changes nothing. */
  lemma TitleIdempotent(s: string)
    ensures Title(Title(s)) == Title(s)
  {
    var t := Title(s);
    forall i | 0 <= i < |s|
      ensures Title(t)[i] == t[i]
    {
      assert IsLetter(t[i]) <==> IsLetter(s[i]);
      if i > 0 {
        assert IsLetter(t[i - 1]) <==> IsLetter(s[i - 1]);
      }
    }
  }

  /** Title-casing only changes the case of letters. */
  lemma TitleKeepsLowerForm(s: string)
    ensures Lower(Title(s)) == Lower(s)
  {
    forall i | 0 <= i < |s|
      ensures Lower(Title(s))[i] == Lower(s)[i]
    {
      if IsLower(s[i]) {
        assert ToLower(ToUpper(s[i])) == s[i];
      }
    }
  }

  /** Normalising a display name again changes nothing: no underscore survives, and
      spaces and underscores both end a word. */
  lemma DisplayNameIdempotent(s: string)
    ensures DisplayName(DisplayName(s)) == DisplayName(s)
    ensures forall i :: 0 <= i < |DisplayName(s)| ==> DisplayName(s)[i] != '_'
  {
    var t := Title(s);
    var d := DisplayName(s);
    forall i | 0 <= i < |d|
      ensures Title(d)[i] == d[i]
    {
      assert IsLetter(d[i]) <==> IsLetter(t[i]);
      assert IsLetter(t[i]) <==> IsLetter(s[i]);
      if i > 0 {
        assert IsLetter(d[i - 1]) <==> IsLetter(s[i - 1]);
        assert IsLetter(t[i - 1]) <==> IsLetter(s[i - 1]);
      }
    }
    assert Title(d) == d;
  }

  /** A non-empty run of lower-case letters. */
  ghost predicate IsLowerWord(w: string) {
    |w| > 0 && forall i :: 0 <= i < |w| ==> IsLower(w[i])
  }

  /** A lower-case word with its first letter upper-cased. */
  function Capitalized(w: string): (r: string)
    requires |w| > 0
    ensures |r| == |w| && r[0] == ToUpper(w[0]) && r[1..] == w[1..]
  {
    [ToUpper(w[0])] + w[1..]
  }

  /** Two snake-case words become two capitalised words separated by a space:
      `first_name` is displayed as `First Name`. */
  lemma DisplayNameOfSnakeCase(a: string, b: string)
    requires IsLowerWord(a) && IsLowerWord(b)
    ensures DisplayName(a + "_" + b) == Capitalized(a) + " " + Capitalized(b)
  {
    var s := a + "_" + b;
    var d := DisplayName(s);
    var e := Capitalized(a) + " " + Capitalized(b);
    assert |d| == |e|;
    forall i | 0 <= i < |s| ensures d[i] == e[i] {
      if i < |a| {
        assert s[i] == a[i];
        if i > 0 {
          assert s[i - 1] == a[i - 1];
          assert e[i] == a[i];
        }
      } else if i == |a| {
        assert s[i] == '_';
      } else {
        assert s[i] == b[i - |a| - 1];
        if i > |a| + 1 {
          assert s[i - 1] == b[i - |a| - 2];
          assert e[i] == Capitalized(b)[i - |a| - 1] == b[i - |a| - 1];
        } else {
          assert s[i - 1] == '_';
        }
      }
    }
  }

  /** Decoding class names twice gives the same name as decoding once. */
  lemma DecodeSpacesIdempotent(s: string)
    ensures DecodeSpaces(DecodeSpaces(s)) == DecodeSpaces(s)
  {
  }
}

=== FILE: wrappers.dfy ===
/** Failure-compatible result and optional values used throughout the model. */
module Wrappers {

  /** A value that may be absent, such as a dict key that was never set. */
  datatype Option<+T> = None | Some(value: T)

  /** The outcome of a computation that may raise: its value, or the error it raised. */
  datatype Result<+T, +E> = Success(value: T) | Failure(error: E) {

    predicate IsFailure() {
      Failure?
    }

    function PropagateFailure<U>(): Result<U, E>
      requires Failure?
    {
      Failure(error)
    }

    function Extract(): T
      requires Success?
    {
      value
    }
  }
}
